=== FILE: README.md ===
# shorturl — a Dafny model of the short-code core

The service maps long URLs to 6-character codes and resolves codes back to
URLs. This project models its core:

- how a URL's 32-bit fingerprint becomes a code;
- how codes are routed into three partitions;
- how URLs whose fingerprints collide share a code, told apart by an
  ordinal from 0 to 15;
- how the read path decodes a presented code into a stored code, an
  ordinal and a cache key, and looks it up cache-aside.

It also models the service's error type and the HTTP status each error
turns into.

Modules, one per concern:

| module | file | models |
|---|---|---|
| `Errors` | errors.dfy | the error enum, its display text, the status mapping |
| `Options` | options.dfy | an optional value |
| `Alphabet` | alphabet.dfy | the 64-symbol table and the linear scan over it |
| `Base64` | base64.dfy | the 4 big-endian bytes of a fingerprint in Base64 without padding (section 4 of RFC 4648, no `=` as section 3.2 allows) |
| `Partitions` | partitions.dfy | the collection chosen from a code's first character |
| `Records` | records.dfy | the three collections as sequences of records, the count and the two lookups, and the store invariant |
| `Shorten` | shorten.dfy | the write path: count, reuse, append or overflow |
| `Resolve` | resolve.dfy | the read path: decode, cache key, GET, store lookup, SETEX |

Conventions of the model:

- The fingerprint function is a parameter `hash: string -> U32`.
- Each backend call either succeeds or fails. An `Env` value says which:
  - `storeUp`: the store;
  - `poolUp`: taking a cache connection from the pool;
  - `getOk`: the GET;
  - `setOk`: the SETEX.
- The store is three sequences of records in insertion order. A lookup
  returns the first match.
- The cache is a map from key to URL.

## Model

| member | source | states |
|---|---|---|
| Errors.Message | src/error.rs:6-26 | an overflow's text ends with the rejected URL and is longer than it |
| Errors.IntoResponse | src/error.rs:28-48 | every error maps to 400 or 500; 400 exactly for the parameter error, which is the only 4xx; the body is the error's text |
| Errors.BackendErrorsAreServerErrors | src/error.rs:35-41 | store and cache errors answer 500 |
| Errors.OverflowReportsUrl | src/error.rs:43-45 | an overflow answers 500 with "hash collision: " and the URL |
| Alphabet.Position | src/route.rs:24-29 | the class-based position is at most 64; below 64 the table holds the character there; 64 exactly for a character outside the alphabet |
| Alphabet.InAlphabetIsMembership | src/route.rs:24-29 | the character classes A-Z, a-z, 0-9, '+', '/' are exactly the table's symbols |
| Alphabet.PositionOfSymbol | src/route.rs:24-29 | no symbol occurs twice: the symbol at i is found at i |
| Alphabet.VariantSymbol | src/route.rs:24-29 | positions 0, 16, 32, 48 hold A, Q, g, w |
| Alphabet.ScanTables | src/route.rs:140-146 | the loop stops at the first match, or runs to 64, and agrees with Position |
| Base64.ToBigEndian | src/route.rs:84 | four bytes that read back as the same 32-bit value |
| Base64.BigEndianRoundTrip | src/route.rs:84 | four bytes survive reading and re-splitting |
| Base64.EncodeSextets | src/route.rs:83-84 | ceil(4n/3) 6-bit groups, canonical: no lone symbol and a partial group's unused low bits zero |
| Base64.DecodeEncodeSextets | src/route.rs:83-84 | regrouping the 6-bit groups gives back any byte string |
| Base64.EncodeDecodeSextets | src/route.rs:83-84 | every canonical group sequence is the encoding of its decoding |
| Base64.DecodeSextets | src/route.rs:83-84 | decoding succeeds exactly on canonical input, and yields 3 bytes per 4 symbols |
| Base64.Encode | src/route.rs:83-84 | ceil(4n/3) symbols, all in the alphabet, each at the position of its 6-bit group |
| Base64.DecodeEncode | src/route.rs:83-84 | decoding inverts the encoder on every byte string |
| Base64.EncodeDecode | src/route.rs:83-84 | the encoder inverts decoding on every decodable string |
| Base64.EncodeHash | src/route.rs:81-84 | 6 symbols, all in the alphabet; the last is at (h mod 4) * 16, so its 4 low bits are 0 |
| Base64.EncodeHashInjective | src/route.rs:81-84 | two fingerprints share a code exactly when they are equal |
| Base64.IssuedCodes | src/route.rs:81-84 | the codes issued are exactly the 6-symbol strings whose last symbol has its 4 low bits clear |
| Partitions.CollectionName | src/route.rs:55-64 | Upper exactly for an ASCII capital first character, Lower exactly for a small one, Digit otherwise |
| Partitions.Partition.Name | src/route.rs:55-64 | the collection name is always "upper", "lower" or "digit" |
| Partitions.NamesDistinct | src/route.rs:55-64 | the three collection names differ |
| Partitions.FirstCharacterDecides | src/route.rs:55-64 | the first character alone decides the partition |
| Partitions.PartitionBySymbolPosition | src/route.rs:55-64 | alphabet positions 0-25, 26-51 and 52-63 route to Upper, Lower and Digit |
| Records.RecordsFor | src/route.rs:89-92 | the records counted for a code are exactly the stored records with that code |
| Records.Store.Insert | src/route.rs:94-99 | an insert appends the record to its partition and leaves the other two unchanged |
| Records.CountFor | src/route.rs:89-92 | the document count is at most the partition's size, and zero exactly when no record has the code |
| Records.RecordsForMultiset | src/route.rs:89-92 | every stored record with the code is counted as often as it is stored, and no other record is counted |
| Records.CountForMultiset | src/route.rs:89-92 | the count depends only on which records are stored and how often, not on their order |
| Records.FindByUrl | src/route.rs:102-104 | finds a stored record with the code and URL exactly when one exists |
| Records.FindBySeq | src/route.rs:163-171 | finds a stored record with the code and ordinal exactly when one exists |
| Records.FindBySeqAppend | src/route.rs:113-118 | once an ordinal lookup finds a record, appending never changes it |
| Records.FindBySeqValid | src/route.rs:163-171 | in a valid partition, ordinal k finds the code's k-th record, or nothing past the last |
| Records.AppendPreservesPartitionValid | src/route.rs:113-118 | appending the next ordinal for a new URL keeps ordinals contiguous, at most 16, and URLs distinct |
| Records.InsertPreservesValid | src/route.rs:113-118 | the same for the whole store, other partitions unchanged |
| Records.CountBounded | src/route.rs:101 | in a valid store no code has more than 16 records |
| Shorten.CountAsU32 | src/route.rs:89-92 | the count as a 32-bit value: below 2^32 and equal to the count when it fits |
| Shorten.ShortUrl | src/route.rs:74-123 | an empty URL is a parameter error with no write; errors write nothing; success answers the URL's code and leaves the URL stored; a write is one append with ordinal = count; store down gives a store error |
| Shorten.FirstUrlForCode | src/route.rs:93-100 | the first URL of a code is stored with ordinal 0 |
| Shorten.ResubmitIsIdempotent | src/route.rs:101-112 | below the ceiling a stored URL gets its code back and nothing is written |
| Shorten.CollidingUrlTakesNextOrdinal | src/route.rs:113-119 | below the ceiling a new URL is appended with ordinal = count and gets the code |
| Shorten.FullCodeOverflows | src/route.rs:120-122 | at 16 records or more the answer is an overflow carrying the URL, with no write |
| Shorten.ShortUrlPreservesValid | src/route.rs:74-123 | every request keeps the store valid |
| Shorten.StoredExactlyOnce | src/route.rs:101-119 | after success the URL is stored exactly once under its code |
| Shorten.RepeatBelowCeiling | src/route.rs:101-112 | repeating a successful request below the ceiling gives the same answer and store |
| Shorten.RepeatAtCeilingOverflows | src/route.rs:101-122 | a URL stored in the 16th slot is answered the first time and overflows when repeated |
| Shorten.ShortUrlChecked | src/route.rs:74-123 | the lookup-first write: an empty URL is a parameter error with no write; errors write nothing; success answers the URL's code and leaves the URL stored; a write is one append with ordinal = count; store down gives a store error |
| Shorten.CheckedAgreesBelowCeiling | src/route.rs:89-122 | both orders agree except on a stored URL at the ceiling |
| Shorten.CheckedRepeatIsIdempotent | src/route.rs:101-112 | with the lookup first, repeating any successful request gives the same answer and store |
| Shorten.CheckedPreservesValid | src/route.rs:89-122 | the lookup-first write keeps the store valid |
| Shorten.ShortenAllPreservesValid | src/route.rs:74-123 | any sequence of requests served as written keeps the store valid |
| Shorten.ShortenAllCheckedPreservesValid | src/route.rs:74-123 | the same for requests served lookup-first |
| Shorten.CollisionStep | src/route.rs:93-119 | a URL new to its code, below the ceiling, gets the code and is appended as the code's next record |
| Shorten.CollisionOrdering | src/route.rs:93-119 | served as written, up to 16 distinct URLs with one fingerprint all get its code and are stored with ordinals 0, 1, ... in call order |
| Shorten.RunsAgree | src/route.rs:93-122 | on such a run the lookup-first write gives the same answers and store as the write as written |
| Shorten.SeventeenthCollisionOverflows | src/route.rs:101-122 | served as written, after 16 colliding URLs any further request with that fingerprint, a repeat of one of them included, overflows and writes nothing |
| Shorten.CheckedSeventeenthOverflows | src/route.rs:120-122 | served lookup-first, after 16 colliding URLs a new URL with that fingerprint overflows and writes nothing |
| Resolve.MaskArithmetic | src/route.rs:147-148 | on a byte up to 64, `& 48` and `& 15` split it into a multiple of 16 and the rest; 64 gives 0 and 0 |
| Resolve.MasksOfPosition | src/route.rs:147-148 | the masks on a scan position equal VariantBits and OrdinalBits |
| Resolve.VariantBits | src/route.rs:148 | the variant is 0, 16, 32 or 48, and 0 for the not-found position 64 |
| Resolve.OrdinalBits | src/route.rs:147 | the ordinal is below 16 and adds up with the variant to the position |
| Resolve.ReplacedSymbol | src/route.rs:147-151 | the replacement symbol has its low bits clear and, with the ordinal, gives back the position; a character outside the alphabet becomes 'A' with ordinal 0 |
| Resolve.DecodeCode | src/route.rs:139-151 | an empty code is a parameter error; otherwise the ordinal is below 16, only the last character changes, the result's last symbol has its low bits clear, and position = base + ordinal |
| Resolve.Decimal | src/route.rs:155 | the ordinal is written as a non-empty string of decimal digits without a leading zero ("0" for zero) |
| Resolve.ParseDecimalOfDecimal | src/route.rs:155 | the decimal digits of the ordinal read back as the ordinal |
| Resolve.CacheKey | src/route.rs:155 | the key is the code, a ':' and the ordinal's decimal digits without a leading zero, which read back as the ordinal |
| Resolve.DecimalInjective | src/route.rs:155 | two ordinals are written alike exactly when they are equal |
| Resolve.CacheKeyInjective | src/route.rs:155 | two decoded codes share a key exactly when code and ordinal are equal |
| Resolve.StoreAnswer | src/route.rs:160-177 | the URL of a stored record with the code and ordinal, or the empty URL when the code's partition has none |
| Resolve.InCache | src/route.rs:183-186 | a pool failure is the only error; with a working GET a present key returns its cached URL; a failed GET or an absent key is a miss |
| Resolve.SetCache | src/route.rs:188-198 | a write maps the key to the URL and changes nothing else; a failure leaves the cache as it was |
| Resolve.SetThenGet | src/route.rs:183-198 | a written entry is read back |
| Resolve.Query | src/route.rs:135-181 | empty code is a parameter error; pool failure errors; a hit answers the cached URL without the store; a miss with the store down errors; otherwise the store's answer; a found record is written to the cache under its own key, and a failed write is a cache error; nothing else changes the cache |
| Resolve.CacheAsideMatchesStore | src/route.rs:155-180 | with the pool, the store and SETEX working, a coherent cache makes the answer what the store alone answers, and the cache stays coherent |
| Resolve.QueryKeepsCoherent | src/route.rs:155-180 | every lookup keeps a coherent cache coherent, whichever backends fail |
| Resolve.ExpiryKeepsCoherent | src/route.rs:190-193 | entries expiring keep the cache coherent |
| Resolve.InsertKeepsCoherent | src/route.rs:113-118 | appending a record keeps the cache coherent |
| Resolve.ShortUrlKeepsCoherent | src/route.rs:74-123 | a write request never makes a cached answer stale |
| Resolve.CheckedKeepsCoherent | src/route.rs:74-123 | the same for the lookup-first write |
| Resolve.CachedAnswerSurvivesStoreOutage | src/route.rs:155-159 | a non-empty answer is given again from the cache for any store, even when the store is down |
| Resolve.DecodeIssuedCode | src/route.rs:139-151 | an issued code decodes to itself with ordinal 0 |
| Resolve.CodeForOrdinal | src/route.rs:147-151 | the code for ordinal s is the stored code with its last symbol moved s places |
| Resolve.DecodeCodeForOrdinal | src/route.rs:139-151 | that code decodes to the stored code and ordinal s |
| Resolve.OrdinalCodeUnique | src/route.rs:139-151 | a code ending in a symbol reaches (code, s) exactly when it is that code |
| Resolve.AlignedPosition | src/route.rs:147-148 | a multiple of 16 plus an ordinal below 16 splits back into the two |
| Resolve.CollidedOrdinalsNotIssued | src/route.rs:81-84 | the codes for ordinals 1 to 15 are never issued |
| Resolve.IssuedCodeResolvesToFirst | src/route.rs:135-181 | in a valid store with a coherent cache, and with the pool, the store and SETEX working, an issued code resolves to the first URL filed under it, or to the empty URL |
| Resolve.ReachedOnlyByOwnOrdinal | src/route.rs:139-180 | in a valid store with a coherent cache, a presented code that decodes to the stored code and resolves to the URL at a nonzero ordinal k is the code of ordinal k |
| Resolve.CollidedUrlUnreachableByItsCode | src/route.rs:113-181 | in a valid store with a coherent cache and every backend working, a URL that collided gets the first URL's code, which resolves to the first URL; among codes decoding to that code, only the code of its own ordinal resolves to the URL |

## Left out

- The HTTP layer: routing, JSON bodies, CORS and the health route. Handlers are functions from their parsed input.
- The fingerprint function (CityHash32) is a parameter. Its bits are not modelled.
- The store and cache drivers. A backend call either succeeds or fails as `Env` says. Error payloads are not kept. A driver that fails part-way is a failure before any write.
- `MongoValueError` is modelled in the error type only. With records that always have their fields, the two field reads that raise it cannot fail.
- Expiry: SETEX sets a 10-second lifetime. The model has no clock. Expiry is any removal of keys, covered by Resolve.ExpiryKeepsCoherent.
- Concurrency: requests are sequential. Two concurrent writes of the same code can both read the same count.
- Resolve.DecodeCode: requires the last character to be ASCII. The byte-indexed replacement of the last character panics on a multi-byte character, and that panic is not modelled.
- Resolve.Query: the pool is up or down for the whole request. A pool that fails only for the SETEX connection is not modelled.
- Records.FindByUrl: the store's "find one" is modelled as the first match in insertion order. Under the store invariant at most one record matches, so the order does not matter.
- Shorten.CountAsU32: the `as u32` cast on the count is modelled as reduction mod 2^32. Under the store invariant the count is at most 16.
- Resolve.MaskArithmetic: stated on bytes, which is enough because a scan position is at most 64. The model computes with the arithmetic forms it justifies.
- Unknown last character: it is never rejected. It is replaced by 'A' and read as ordinal 0.
- `main.rs`, `config.rs` and `db.rs` are not part of this model: process start-up, addresses and client construction.

## Findings

| source | as written | input that shows it | evidently intended | confidence | as-written member | corrected member |
|---|---|---|---|---|---|---|
| src/route.rs:101-122 | the count is compared with 16 before looking for the URL, so a code with 16 records answers `Overflow` even for a URL already stored under it | 15 URLs with one fingerprint stored, then a 16th new URL with the same fingerprint submitted twice: the first call is answered with the code and stores it; the second gets `Overflow(url)` | resubmitting a stored URL always answers its code, with no write | not executed | Shorten.RepeatAtCeilingOverflows | Shorten.CheckedRepeatIsIdempotent |

`Shorten.ShortUrl` is the write as written. `Shorten.ShortUrlChecked` looks the URL up first. `Shorten.CheckedAgreesBelowCeiling` proves the two differ only in the case above.

Sequences of requests are modelled both ways. `Shorten.ShortenAll` serves them with the write as written. `Shorten.ShortenAllChecked` serves them lookup-first.

The collision-ordering lemmas are proved for the write as written. `Shorten.RunsAgree` shows the corrected write behaves the same on every run of distinct colliding URLs. The two differ only after such a run, when one of its URLs is repeated: `Shorten.SeventeenthCollisionOverflows` (as written, the repeat overflows) and `Shorten.CheckedRepeatIsIdempotent` (corrected, the code is answered).

=== FILE: alphabet.dfy ===
/** The 64-symbol alphabet of the short codes (the standard alphabet of
    section 4 of RFC 4648) and the position lookup the read path uses. */
module Alphabet {

  /** The symbols in alphabet order: A-Z, a-z, 0-9, '+', '/'. */
  const TABLES: seq<char> :=
    ['A', 'B', 'C', 'D', 'E', 'F', 'G', 'H', 'I', 'J', 'K', 'L', 'M',
     'N', 'O', 'P', 'Q', 'R', 'S', 'T', 'U', 'V', 'W', 'X', 'Y', 'Z'] +
    ['a', 'b', 'c', 'd', 'e', 'f', 'g', 'h', 'i', 'j', 'k', 'l', 'm',
     'n', 'o', 'p', 'q', 'r', 's', 't', 'u', 'v', 'w', 'x', 'y', 'z'] +
    ['0', '1', '2', '3', '4', '5', '6', '7', '8', '9'] +
    ['+', '/']

  /** The position the alphabet scan reports for a character that is not
      in the alphabet: the scan runs off the end. */
  const NOT_FOUND: nat := 64

  /** The code point of the symbol at position `i`, by character class. */
  function SymbolCode(i: nat): int
    requires i < 64
  {
    if i < 26 then 'A' as int + i
    else if i < 52 then 'a' as int + (i - 26)
    else if i < 62 then '0' as int + (i - 52)
    else if i == 62 then '+' as int
    else '/' as int
  }

  lemma TablesLayout()
    ensures |TABLES| == 64
    ensures forall i :: 0 <= i < 64 ==> TABLES[i] as int == SymbolCode(i)
  {
  }

  /** Whether `c` is one of the symbols, by character class. */
  predicate InAlphabet(c: char) {
    'A' <= c <= 'Z' || 'a' <= c <= 'z' || '0' <= c <= '9' || c == '+' || c == '/'
  }

  /** The character classes are exactly the symbols of TABLES. */
  lemma InAlphabetIsMembership(c: char)
    ensures InAlphabet(c) <==> c in TABLES
  {
    TablesLayout();
    if c in TABLES {
      var i :| 0 <= i < |TABLES| && TABLES[i] == c;
      assert c as int == SymbolCode(i);
    }
  }

  /** The position of `c` in the alphabet, or NOT_FOUND, computed from the
      character class rather than by scanning. */
  function Position(c: char): (idx: nat)
    ensures idx <= NOT_FOUND
    ensures idx < NOT_FOUND ==> TABLES[idx] == c
    ensures idx == NOT_FOUND <==> !InAlphabet(c)
  {
    TablesLayout();
    if 'A' <= c <= 'Z' then c as int - 'A' as int
    else if 'a' <= c <= 'z' then c as int - 'a' as int + 26
    else if '0' <= c <= '9' then c as int - '0' as int + 52
    else if c == '+' then 62
    else if c == '/' then 63
    else NOT_FOUND
  }

  /** No symbol occurs twice: the position of the symbol at `i` is `i`. */
  lemma PositionOfSymbol(i: nat)
    requires i < 64
    ensures Position(TABLES[i]) == i
  {
    TablesLayout();
  }

  /** The four symbols whose position has the 4 low bits clear: A, Q, g
      and w, all letters. */
  lemma VariantSymbol(v: nat)
    requires v < 64 && v % 16 == 0
    ensures Position(TABLES[v]) == v
    ensures TABLES[v] in {'A', 'Q', 'g', 'w'}
    ensures v == 0 ==> TABLES[v] == 'A'
  {
    assert |TABLES| == 64;
    if v == 0 {
      assert TABLES[v] == 'A';
    } else if v == 16 {
      assert TABLES[v] == 'Q';
    } else if v == 32 {
      assert TABLES[v] == 'g';
    } else {
      assert TABLES[v] == 'w';
    }
  }

  /** The linear scan of the read path: count the symbols passed before
      the first one equal to `last`; the count is NOT_FOUND when none is. */
  method ScanTables(last: char) returns (idx: nat)
    ensures idx <= NOT_FOUND
    ensures idx < NOT_FOUND ==> TABLES[idx] == last
    ensures forall j :: 0 <= j < idx && j < |TABLES| ==> TABLES[j] != last
    ensures idx == Position(last)
  {
    assert |TABLES| == 64;
    idx := 0;
    var i := 0;
    while i < |TABLES|
      invariant 0 <= i <= |TABLES|
      invariant idx == i
      invariant forall j :: 0 <= j < i ==> TABLES[j] != last
    {
      if TABLES[i] == last {
        break;
      }
      idx := idx + 1;
      i := i + 1;
    }
    if idx < NOT_FOUND {
      PositionOfSymbol(idx);
    }
  }
}

=== FILE: base64.dfy ===
/** The fingerprint encoder: a 32-bit hash is written as 4 big-endian bytes
    and encoded with the standard alphabet of section 4 of RFC 4648,
    without the padding that section 3.2 allows an application to omit. */
module Base64 {
  import opened Alphabet
  import opened Options

  type Byte = b: int | 0 <= b < 256
  type Sextet = x: int | 0 <= x < 64

  const TWO_32: int := 0x1_0000_0000

  /** The value range of the 32-bit fingerprint. */
  type U32 = h: int | 0 <= h < 0x1_0000_0000

  /** The length of a short code: 32 bits need six 6-bit symbols. */
  const CODE_LENGTH: nat := 6

  /** The value of 4 bytes read most significant first. */
  function FromBigEndian(bs: seq<Byte>): (h: U32)
    requires |bs| == 4
  {
    ((bs[0] as int * 256 + bs[1] as int) * 256 + bs[2] as int) * 256 + bs[3] as int
  }

  /** The 4 bytes of a 32-bit value, most significant first. */
  function ToBigEndian(h: U32): (bs: seq<Byte>)
    ensures |bs| == 4
    ensures FromBigEndian(bs) == h
  {
    [h / 0x100_0000, (h / 0x1_0000) % 256, (h / 0x100) % 256, h % 256]
  }

  lemma BigEndianRoundTrip(bs: seq<Byte>)
    requires |bs| == 4
    ensures ToBigEndian(FromBigEndian(bs)) == bs
  {
    var h := FromBigEndian(bs);
    assert h / 0x100_0000 == bs[0];
    assert (h / 0x1_0000) % 256 == bs[1];
    assert (h / 0x100) % 256 == bs[2];
  }

  /** Three bytes as four 6-bit groups, most significant bits first. */
  function Group3(b0: Byte, b1: Byte, b2: Byte): seq<Sextet> {
    [b0 / 4, (b0 % 4) * 16 + b1 / 16, (b1 % 16) * 4 + b2 / 64, b2 % 64]
  }

  /** Two bytes as three groups; the last group's 2 low bits are zero. */
  function Group2(b0: Byte, b1: Byte): seq<Sextet> {
    [b0 / 4, (b0 % 4) * 16 + b1 / 16, (b1 % 16) * 4]
  }

  /** One byte as two groups; the last group's 4 low bits are zero. */
  function Group1(b0: Byte): seq<Sextet> {
    [b0 / 4, (b0 % 4) * 16]
  }

  function Ungroup4(x0: Sextet, x1: Sextet, x2: Sextet, x3: Sextet): seq<Byte> {
    [x0 as int * 4 + x1 as int / 16, (x1 as int % 16) * 16 + x2 as int / 4, (x2 as int % 4) * 64 + x3 as int]
  }

  function Ungroup3(x0: Sextet, x1: Sextet, x2: Sextet): seq<Byte> {
    [x0 as int * 4 + x1 as int / 16, (x1 as int % 16) * 16 + x2 as int / 4]
  }

  function Ungroup2(x0: Sextet, x1: Sextet): seq<Byte> {
    [x0 as int * 4 + x1 as int / 16]
  }

  /** Division by 4, 16 or 64 recovers the parts of `hi * m + lo`. */
  lemma DivModParts(hi: int, lo: int, m: int)
    requires m == 4 || m == 16 || m == 64
    requires 0 <= lo < m
    ensures (hi * m + lo) / m == hi
    ensures (hi * m + lo) % m == lo
  {
    if m == 4 {
      assert (hi * 4 + lo) / 4 == hi;
    } else if m == 16 {
      assert (hi * 16 + lo) / 16 == hi;
    } else {
      assert (hi * 64 + lo) / 64 == hi;
    }
  }

  lemma GroupRoundTrips(b0: Byte, b1: Byte, b2: Byte)
    ensures var g := Group3(b0, b1, b2); Ungroup4(g[0], g[1], g[2], g[3]) == [b0, b1, b2]
    ensures var g := Group2(b0, b1); Ungroup3(g[0], g[1], g[2]) == [b0, b1]
    ensures var g := Group1(b0); Ungroup2(g[0], g[1]) == [b0]
    ensures Group2(b0, b1)[2] % 4 == 0 && Group1(b0)[1] % 16 == 0
  {
    Group3RoundTrip(b0, b1, b2);
    Group2RoundTrip(b0, b1);
    Group1RoundTrip(b0);
  }

  lemma Group3RoundTrip(b0: Byte, b1: Byte, b2: Byte)
    ensures var g := Group3(b0, b1, b2); Ungroup4(g[0], g[1], g[2], g[3]) == [b0, b1, b2]
  {
    DivModParts(b0 % 4, b1 / 16, 16);
    DivModParts(b1 % 16, b2 / 64, 4);
  }

  lemma Group2RoundTrip(b0: Byte, b1: Byte)
    ensures var g := Group2(b0, b1); Ungroup3(g[0], g[1], g[2]) == [b0, b1]
    ensures Group2(b0, b1)[2] % 4 == 0
  {
    DivModParts(b0 % 4, b1 / 16, 16);
    DivModParts(b1 % 16, 0, 4);
  }

  lemma Group1RoundTrip(b0: Byte)
    ensures var g := Group1(b0); Ungroup2(g[0], g[1]) == [b0]
    ensures Group1(b0)[1] % 16 == 0
  {
    DivModParts(b0 % 4, 0, 16);
  }

  lemma UngroupRoundTrips(x0: Sextet, x1: Sextet, x2: Sextet, x3: Sextet)
    ensures var b := Ungroup4(x0, x1, x2, x3); Group3(b[0], b[1], b[2]) == [x0, x1, x2, x3]
    ensures x2 % 4 == 0 ==> var b := Ungroup3(x0, x1, x2); Group2(b[0], b[1]) == [x0, x1, x2]
    ensures x1 % 16 == 0 ==> var b := Ungroup2(x0, x1); Group1(b[0]) == [x0, x1]
  {
    Ungroup4RoundTrip(x0, x1, x2, x3);
    if x2 % 4 == 0 {
      Ungroup3RoundTrip(x0, x1, x2);
    }
    if x1 % 16 == 0 {
      Ungroup2RoundTrip(x0, x1);
    }
  }

  lemma Ungroup4RoundTrip(x0: Sextet, x1: Sextet, x2: Sextet, x3: Sextet)
    ensures var b := Ungroup4(x0, x1, x2, x3); Group3(b[0], b[1], b[2]) == [x0, x1, x2, x3]
  {
    var b := Ungroup4(x0, x1, x2, x3);
    DivModParts(x0, x1 / 16, 4);
    DivModParts(x1 % 16, x2 / 4, 16);
    DivModParts(x2 % 4, x3, 64);
    assert b[0] / 4 == x0 && b[0] % 4 == x1 / 16;
    assert b[1] / 16 == x1 % 16 && b[1] % 16 == x2 / 4;
    assert b[2] / 64 == x2 % 4 && b[2] % 64 == x3;
    assert (x1 / 16) * 16 + x1 % 16 == x1;
    assert (x2 / 4) * 4 + x2 % 4 == x2;
  }

  lemma Ungroup3RoundTrip(x0: Sextet, x1: Sextet, x2: Sextet)
    requires x2 % 4 == 0
    ensures var b := Ungroup3(x0, x1, x2); Group2(b[0], b[1]) == [x0, x1, x2]
  {
    DivModParts(x0, x1 / 16, 4);
    DivModParts(x1 % 16, x2 / 4, 16);
  }

  lemma Ungroup2RoundTrip(x0: Sextet, x1: Sextet)
    requires x1 % 16 == 0
    ensures var b := Ungroup2(x0, x1); Group1(b[0]) == [x0, x1]
  {
    DivModParts(x0, x1 / 16, 4);
  }

  /** Split bytes into 6-bit groups, most significant bits first. A final
      group of 1 or 2 bytes gives 2 or 3 symbols whose unused low bits are
      zero; no padding symbol is emitted. */
  function EncodeSextets(bs: seq<Byte>): (xs: seq<Sextet>)
    ensures |xs| == (4 * |bs| + 2) / 3
    ensures Canonical(xs)
    decreases |bs|
  {
    if |bs| == 0 then []
    else if |bs| == 1 then Group1(bs[0])
    else if |bs| == 2 then Group2(bs[0], bs[1])
    else Group3(bs[0], bs[1], bs[2]) + EncodeSextets(bs[3..])
  }

  /** A sequence of 6-bit groups is the encoding of some bytes exactly when
      its length leaves no lone symbol and the unused low bits of a
      trailing partial group are zero. */
  predicate Canonical(xs: seq<Sextet>) {
    && |xs| % 4 != 1
    && (|xs| % 4 == 2 ==> xs[|xs| - 1] % 16 == 0)
    && (|xs| % 4 == 3 ==> xs[|xs| - 1] % 4 == 0)
  }

  /** The inverse of EncodeSextets; None for a non-canonical input. */
  function DecodeSextets(xs: seq<Sextet>): (r: Option<seq<Byte>>)
    ensures r.Some? <==> Canonical(xs)
    ensures r.Some? ==> |r.value| == (3 * |xs|) / 4
    decreases |xs|
  {
    if |xs| == 0 then Some([])
    else if |xs| == 1 then None
    else if |xs| == 2 then
      if xs[1] % 16 == 0 then Some(Ungroup2(xs[0], xs[1])) else None
    else if |xs| == 3 then
      if xs[2] % 4 == 0 then Some(Ungroup3(xs[0], xs[1], xs[2])) else None
    else
      CanonicalTail(xs);
      match DecodeSextets(xs[4..])
      case None => None
      case Some(rest) => Some(Ungroup4(xs[0], xs[1], xs[2], xs[3]) + rest)
  }

  lemma {:induction false} DecodeEncodeSextets(bs: seq<Byte>)
    ensures DecodeSextets(EncodeSextets(bs)) == Some(bs)
    decreases |bs|
  {
    if |bs| == 0 {
    } else if |bs| < 3 {
      DecodeEncodeShort(bs);
    } else {
      DecodeEncodeSextets(bs[3..]);
      DecodeEncodeGroup(bs);
    }
  }

  /** A final partial group of one or two bytes comes back. */
  lemma {:induction false} DecodeEncodeShort(bs: seq<Byte>)
    requires 1 <= |bs| <= 2
    ensures DecodeSextets(EncodeSextets(bs)) == Some(bs)
  {
    if |bs| == 1 {
      Group1RoundTrip(bs[0]);
      var xs := Group1(bs[0]);
      assert EncodeSextets(bs) == xs;
      assert DecodeSextets(xs) == Some(Ungroup2(xs[0], xs[1]));
      assert bs == [bs[0]];
    } else {
      Group2RoundTrip(bs[0], bs[1]);
      var xs := Group2(bs[0], bs[1]);
      assert EncodeSextets(bs) == xs;
      assert DecodeSextets(xs) == Some(Ungroup3(xs[0], xs[1], xs[2]));
      assert bs == [bs[0], bs[1]];
    }
  }

  /** One full group: the first three bytes come back from their four
      symbols. */
  lemma {:induction false} DecodeEncodeGroup(bs: seq<Byte>)
    requires |bs| >= 3
    requires DecodeSextets(EncodeSextets(bs[3..])) == Some(bs[3..])
    ensures DecodeSextets(EncodeSextets(bs)) == Some(bs)
  {
    Group3RoundTrip(bs[0], bs[1], bs[2]);
    var xs := EncodeSextets(bs);
    assert xs[4..] == EncodeSextets(bs[3..]);
    assert bs == [bs[0], bs[1], bs[2]] + bs[3..];
  }

  /** Dropping a full group keeps the length class and the last symbol. */
  lemma CanonicalTail(xs: seq<Sextet>)
    requires |xs| >= 4
    ensures Canonical(xs[4..]) <==> Canonical(xs)
    ensures (3 * |xs|) / 4 == 3 + (3 * |xs[4..]|) / 4
  {
    assert |xs[4..]| % 4 == |xs| % 4;
    assert |xs[4..]| > 0 ==> xs[4..][|xs[4..]| - 1] == xs[|xs| - 1];
  }

  lemma {:induction false} EncodeDecodeSextets(xs: seq<Sextet>)
    requires Canonical(xs)
    ensures EncodeSextets(DecodeSextets(xs).value) == xs
    decreases |xs|
  {
    if |xs| == 0 {
    } else if |xs| == 2 {
      UngroupRoundTrips(xs[0], xs[1], 0, 0);
    } else if |xs| == 3 {
      UngroupRoundTrips(xs[0], xs[1], xs[2], 0);
    } else {
      CanonicalTail(xs);
      EncodeDecodeSextets(xs[4..]);
      EncodeDecodeGroup(xs);
    }
  }

  /** One full group of the inverse direction: the first four symbols
      come back from their three bytes. */
  lemma {:induction false} EncodeDecodeGroup(xs: seq<Sextet>)
    requires |xs| >= 4 && Canonical(xs) && Canonical(xs[4..])
    requires EncodeSextets(DecodeSextets(xs[4..]).value) == xs[4..]
    ensures EncodeSextets(DecodeSextets(xs).value) == xs
  {
    UngroupRoundTrips(xs[0], xs[1], xs[2], xs[3]);
    var bs := DecodeSextets(xs).value;
    assert bs[3..] == DecodeSextets(xs[4..]).value;
    assert xs == [xs[0], xs[1], xs[2], xs[3]] + xs[4..];
  }

  /** The positions of a string's characters in the alphabet. */
  function Positions(s: string): (xs: seq<Sextet>)
    requires forall i :: 0 <= i < |s| ==> InAlphabet(s[i])
    ensures |xs| == |s|
    ensures forall i :: 0 <= i < |s| ==> TABLES[xs[i]] == s[i]
  {
    seq(|s|, i requires 0 <= i < |s| => Position(s[i]))
  }

  /** Base64 without padding (RFC 4648, sections 3.2 and 4). */
  function Encode(bs: seq<Byte>): (s: string)
    ensures |s| == (4 * |bs| + 2) / 3
    ensures forall i :: 0 <= i < |s| ==> InAlphabet(s[i])
    ensures forall i :: 0 <= i < |s| ==> Position(s[i]) == EncodeSextets(bs)[i]
  {
    var xs := EncodeSextets(bs);
    var s := seq(|xs|, i requires 0 <= i < |xs| => TABLES[xs[i]]);
    forall i | 0 <= i < |s|
      ensures Position(s[i]) == xs[i]
    {
      PositionOfSymbol(xs[i]);
    }
    s
  }

  /** The inverse of Encode; None when a character is outside the alphabet
      or the symbols are not the encoding of any bytes. */
  function Decode(s: string): (r: Option<seq<Byte>>)
    ensures r.Some? ==> forall i :: 0 <= i < |s| ==> InAlphabet(s[i])
  {
    if forall i :: 0 <= i < |s| ==> InAlphabet(s[i]) then DecodeSextets(Positions(s))
    else None
  }

  lemma PositionsOfEncode(bs: seq<Byte>)
    ensures Positions(Encode(bs)) == EncodeSextets(bs)
  {
  }

  lemma DecodeEncode(bs: seq<Byte>)
    ensures Decode(Encode(bs)) == Some(bs)
  {
    PositionsOfEncode(bs);
    DecodeEncodeSextets(bs);
  }

  lemma EncodeDecode(s: string)
    requires Decode(s).Some?
    ensures Encode(Decode(s).value) == s
  {
    var xs := Positions(s);
    EncodeDecodeSextets(xs);
  }

  /** The last of the six groups of a 32-bit value holds its 2 low bits. */
  lemma LastSextet(h: U32)
    ensures |EncodeSextets(ToBigEndian(h))| == 6
    ensures EncodeSextets(ToBigEndian(h))[5] == (h % 4) * 16
  {
    var bs := ToBigEndian(h);
    var xs := EncodeSextets(bs);
    assert bs[3..] == [bs[3]];
    assert EncodeSextets(bs[3..]) == Group1(bs[3]);
    assert xs == Group3(bs[0], bs[1], bs[2]) + Group1(bs[3]);
    var r := h % 256;
    assert h == (h / 256) * 256 + r;
    DivModParts((h / 256) * 64 + r / 4, r % 4, 4);
    assert bs[3] % 4 == h % 4;
  }

  lemma LastSymbol(h: U32)
    ensures |Encode(ToBigEndian(h))| == 6
    ensures Position(Encode(ToBigEndian(h))[5]) == (h % 4) * 16
  {
    var bs := ToBigEndian(h);
    LastSextet(h);
    var s := Encode(bs);
    assert Position(s[5]) == EncodeSextets(bs)[5];
  }

  lemma MultipleOf16(p: int, k: int)
    requires 0 <= k < 4 && p == k * 16
    ensures p % 16 == 0
  {
  }

  /** The short code of a fingerprint: its 4 big-endian bytes in Base64
      without padding. Six symbols; the last carries the 2 low bits of the
      hash in its high bits and 4 zero bits, so its position is one of
      0, 16, 32, 48. */
  function EncodeHash(h: U32): (code: string)
    ensures |code| == CODE_LENGTH
    ensures forall i :: 0 <= i < |code| ==> InAlphabet(code[i])
    ensures Position(code[CODE_LENGTH - 1]) % 16 == 0
    ensures Position(code[CODE_LENGTH - 1]) == (h % 4) * 16
  {
    var bs := ToBigEndian(h);
    LastSymbol(h);
    MultipleOf16(Position(Encode(bs)[5]), h % 4);
    Encode(bs)
  }

  /** The shape every issued code has. */
  predicate WellFormedCode(s: string) {
    && |s| == CODE_LENGTH
    && (forall i :: 0 <= i < |s| ==> InAlphabet(s[i]))
    && Position(s[CODE_LENGTH - 1]) % 16 == 0
  }

  /** Distinct fingerprints give distinct codes: two URLs share a code
      exactly when their hashes collide. */
  lemma EncodeHashInjective(h1: U32, h2: U32)
    ensures EncodeHash(h1) == EncodeHash(h2) <==> h1 == h2
  {
    if EncodeHash(h1) == EncodeHash(h2) {
      DecodeEncode(ToBigEndian(h1));
      DecodeEncode(ToBigEndian(h2));
    }
  }

  /** Every well-formed code is the code of some fingerprint: the one its
      symbols decode to. */
  lemma WellFormedCodeIssued(s: string) returns (h: U32)
    requires WellFormedCode(s)
    ensures EncodeHash(h) == s
  {
    var xs := Positions(s);
    assert xs[5] == Position(s[5]);
    assert Canonical(xs);
    var bs := DecodeSextets(xs).value;
    assert Decode(s) == Some(bs);
    EncodeDecode(s);
    BigEndianRoundTrip(bs);
    h := FromBigEndian(bs);
  }

  /** The well-formed codes are exactly the encoder's outputs. */
  lemma IssuedCodes(s: string)
    ensures WellFormedCode(s) <==> exists h: U32 :: EncodeHash(h) == s
  {
    if WellFormedCode(s) {
      var h := WellFormedCodeIssued(s);
    }
  }
}

=== FILE: errors.dfy ===
/** The error taxonomy of the service and the HTTP status each error is
    turned into when it leaves a handler. */
module Errors {

  /** One variant per failure the handlers can report. The store and cache
      variants carry a driver error in the service; that payload is not
      modelled, only the variant. */
  datatype Error =
    | ParamsError
    | MongodbError
    | MongoValueError
    | RedisError
    | RedisPoolError
    | Overflow(url: string)

  /** A handler's outcome: a value, or one of the errors above. */
  datatype Result<+T> = Ok(value: T) | Err(error: Error)

  /** What an error becomes on the wire: a status code and a text body. */
  datatype Response = Response(status: int, body: string)

  const BAD_REQUEST: int := 400
  const INTERNAL_SERVER_ERROR: int := 500

  /** True for the errors the caller caused (status 4xx). */
  predicate IsClientError(e: Error) {
    e.ParamsError?
  }

  /** The display text of each error. Driver errors end with their (not
      modelled) driver message; an overflow ends with the rejected URL. */
  function Message(e: Error): (m: string)
    ensures e.Overflow? ==> |m| >= |e.url| && m[|m| - |e.url|..] == e.url
    ensures e.Overflow? ==> |m| > |e.url|
  {
    match e
    case ParamsError => "parameters error"
    case MongodbError => "an error occurred with the mongodb: "
    case MongoValueError => "an error occurred when access the bson: "
    case RedisError => "an error occurred with the redis: "
    case RedisPoolError => "an error occurred with the redis pool: "
    case Overflow(url) => "hash collision: " + url
  }

  /** The response an error is converted into. Every variant is mapped; a
      parameter error is the only one blamed on the client. */
  function IntoResponse(e: Error): (r: Response)
    ensures r.status == BAD_REQUEST || r.status == INTERNAL_SERVER_ERROR
    ensures r.status == BAD_REQUEST <==> IsClientError(e)
    ensures 400 <= r.status < 500 <==> e == ParamsError
    ensures r.body == Message(e)
  {
    match e
    case ParamsError => Response(BAD_REQUEST, Message(e))
    case MongodbError | MongoValueError => Response(INTERNAL_SERVER_ERROR, Message(e))
    case RedisError | RedisPoolError => Response(INTERNAL_SERVER_ERROR, Message(e))
    case Overflow(_) => Response(INTERNAL_SERVER_ERROR, Message(e))
  }

  /** The store errors and the cache errors are server errors. */
  lemma BackendErrorsAreServerErrors(e: Error)
    requires e.MongodbError? || e.MongoValueError? || e.RedisError? || e.RedisPoolError?
    ensures IntoResponse(e).status == 500
  {
  }

  /** An overflow is a server error whose body names the rejected URL. */
  lemma OverflowReportsUrl(url: string)
    ensures IntoResponse(Overflow(url)).status == 500
    ensures IntoResponse(Overflow(url)).body == "hash collision: " + url
  {
  }
}

=== FILE: options.dfy ===
/** An optional value, for lookups that may find nothing. */
module Options {

  datatype Option<+T> = None | Some(value: T)
}

=== FILE: partitions.dfy ===
/** The partition selector: records live in three collections, chosen from
    the first character of the short code alone, so a code can be routed
    before anything about it has been read. */
module Partitions {
  import opened Alphabet

  datatype Partition = Upper | Lower | Digit {
    /** The collection name the partition is stored under. */
    function Name(): (n: string)
      ensures n == "upper" || n == "lower" || n == "digit"
    {
      match this
      case Upper => "upper"
      case Lower => "lower"
      case Digit => "digit"
    }
  }

  predicate IsAsciiUppercase(c: char) {
    'A' <= c <= 'Z'
  }

  predicate IsAsciiLowercase(c: char) {
    'a' <= c <= 'z'
  }

  /** The partition of a code: by the class of its first character; any
      character that is not an ASCII letter routes to Digit. The source
      unwraps the first character, so the code must not be empty. */
  function CollectionName(code: string): (p: Partition)
    requires |code| > 0
    ensures p == Upper <==> IsAsciiUppercase(code[0])
    ensures p == Lower <==> IsAsciiLowercase(code[0])
    ensures p == Digit <==> !IsAsciiUppercase(code[0]) && !IsAsciiLowercase(code[0])
  {
    var first := code[0];
    if IsAsciiUppercase(first) then Upper
    else if IsAsciiLowercase(first) then Lower
    else Digit
  }

  /** The three collection names are distinct, so the partition is
      recovered from its name. */
  lemma NamesDistinct(p: Partition, q: Partition)
    ensures p.Name() == q.Name() <==> p == q
  {
  }

  /** Codes that share their first character share their partition,
      whatever follows. */
  lemma FirstCharacterDecides(a: string, b: string)
    requires |a| > 0 && |b| > 0
    ensures a[0] == b[0] ==> CollectionName(a) == CollectionName(b)
  {
  }

  /** For a code over the alphabet: the first 26 symbols route to Upper,
      the next 26 to Lower, and the digits, '+' and '/' to Digit. */
  lemma PartitionBySymbolPosition(code: string)
    requires |code| > 0 && InAlphabet(code[0])
    ensures CollectionName(code) == Upper <==> Position(code[0]) < 26
    ensures CollectionName(code) == Lower <==> 26 <= Position(code[0]) < 52
    ensures CollectionName(code) == Digit <==> 52 <= Position(code[0])
  {
  }
}

=== FILE: records.dfy ===
/** The state the handlers work on: the record store, split into the three
    partitions, the cache that fronts it, and which backend calls fail. */
module Records {
  import opened Options
  import opened Base64
  import opened Partitions

  /** At most this many distinct URLs can share one short code. */
  const MAX_COLLISIONS: nat := 16

  /** One stored document: the code, the URL it stands for, and the
      collision ordinal that tells apart URLs sharing the code. */
  datatype Record = Record(shortUrl: string, originalUrl: string, sequence: nat)

  /** The store: one append-only sequence of records per partition, in
      insertion order. */
  datatype Store = Store(upper: seq<Record>, lower: seq<Record>, digit: seq<Record>) {

    function Get(p: Partition): seq<Record> {
      match p
      case Upper => upper
      case Lower => lower
      case Digit => digit
    }

    /** The store after appending `r` to partition `p`. */
    function Insert(p: Partition, r: Record): (s: Store)
      ensures s.Get(p) == Get(p) + [r]
      ensures forall q :: q != p ==> s.Get(q) == Get(q)
    {
      match p
      case Upper => this.(upper := upper + [r])
      case Lower => this.(lower := lower + [r])
      case Digit => this.(digit := digit + [r])
    }
  }

  const EmptyStore: Store := Store([], [], [])

  /** The cache: key to URL. Entries expire on their own; the model lets
      any entry disappear between calls. */
  type Cache = map<string, string>

  /** Which backend calls fail during one request: the store, taking a
      cache connection from the pool, the cache GET, the cache SETEX. */
  datatype Env = Env(storeUp: bool, poolUp: bool, getOk: bool, setOk: bool)

  const Healthy: Env := Env(true, true, true, true)

  /** The records of `rs` whose code is `code`, in insertion order. */
  function RecordsFor(rs: seq<Record>, code: string): (fs: seq<Record>)
    ensures |fs| <= |rs|
    ensures forall r :: r in fs <==> r in rs && r.shortUrl == code
  {
    if rs == [] then []
    else
      var last := rs[|rs| - 1];
      RecordsFor(rs[..|rs| - 1], code) + (if last.shortUrl == code then [last] else [])
  }

  /** The number of records with a code: the document count. It is zero
      exactly when no record has the code, and it is the whole partition
      exactly when every record has it. */
  function CountFor(rs: seq<Record>, code: string): (n: nat)
    ensures n <= |rs|
    ensures n == 0 <==> forall x :: x in rs ==> x.shortUrl != code
  {
    var fs := RecordsFor(rs, code);
    assert fs != [] ==> fs[0] in fs;
    |fs|
  }

  /** The records of a code are those of the partition with that code,
      each as often as the partition holds it, and no others. */
  lemma {:induction false} RecordsForMultiset(rs: seq<Record>, code: string)
    ensures forall r :: multiset(RecordsFor(rs, code))[r] == if r.shortUrl == code then multiset(rs)[r] else 0
  {
    if rs != [] {
      var init := rs[..|rs| - 1];
      var last := rs[|rs| - 1];
      assert rs == init + [last];
      RecordsForMultiset(init, code);
    }
  }

  /** The count does not depend on the order of the partition: it counts
      every record with the code, duplicates included. */
  lemma CountForMultiset(rs1: seq<Record>, rs2: seq<Record>, code: string)
    requires multiset(rs1) == multiset(rs2)
    ensures CountFor(rs1, code) == CountFor(rs2, code)
  {
    RecordsForMultiset(rs1, code);
    RecordsForMultiset(rs2, code);
    var m1 := multiset(RecordsFor(rs1, code));
    var m2 := multiset(RecordsFor(rs2, code));
    assert m1 == m2;
    assert |RecordsFor(rs1, code)| == |m1|;
    assert |RecordsFor(rs2, code)| == |m2|;
  }

  lemma RecordsForAppend(rs: seq<Record>, r: Record, code: string)
    ensures RecordsFor(rs + [r], code)
         == RecordsFor(rs, code) + (if r.shortUrl == code then [r] else [])
  {
    assert (rs + [r])[..|rs|] == rs;
  }

  /** The first record with this code and URL. */
  function FindByUrl(rs: seq<Record>, code: string, url: string): (r: Option<Record>)
    ensures r.Some? ==> r.value in rs && r.value.shortUrl == code && r.value.originalUrl == url
    ensures r.None? <==> forall x :: x in rs ==> !(x.shortUrl == code && x.originalUrl == url)
  {
    if rs == [] then None
    else if rs[0].shortUrl == code && rs[0].originalUrl == url then Some(rs[0])
    else FindByUrl(rs[1..], code, url)
  }

  /** The first record with this code and collision ordinal. */
  function FindBySeq(rs: seq<Record>, code: string, sequence: nat): (r: Option<Record>)
    ensures r.Some? ==> r.value in rs && r.value.shortUrl == code && r.value.sequence == sequence
    ensures r.None? <==> forall x :: x in rs ==> !(x.shortUrl == code && x.sequence == sequence)
  {
    if rs == [] then None
    else if rs[0].shortUrl == code && rs[0].sequence == sequence then Some(rs[0])
    else FindBySeq(rs[1..], code, sequence)
  }

  /** Appending never changes which record a lookup finds first. */
  lemma {:induction false} FindBySeqAppend(rs: seq<Record>, r: Record, code: string, sequence: nat)
    requires FindBySeq(rs, code, sequence).Some?
    ensures FindBySeq(rs + [r], code, sequence) == FindBySeq(rs, code, sequence)
  {
    if rs[0].shortUrl == code && rs[0].sequence == sequence {
    } else {
      assert (rs + [r])[1..] == rs[1..] + [r];
      FindBySeqAppend(rs[1..], r, code, sequence);
    }
  }

  /** The records of one code hold the ordinals 0, 1, ... in insertion
      order, at most MAX_COLLISIONS of them, for pairwise distinct URLs. */
  ghost predicate SlotsValid(fs: seq<Record>) {
    && |fs| <= MAX_COLLISIONS
    && (forall i :: 0 <= i < |fs| ==> fs[i].sequence == i)
    && (forall i, j :: 0 <= i < j < |fs| ==> fs[i].originalUrl != fs[j].originalUrl)
  }

  /** Every record of partition `p` has an issued code routed to `p`, and
      the records of every code satisfy SlotsValid. */
  ghost predicate PartitionValid(p: Partition, rs: seq<Record>) {
    && (forall i :: 0 <= i < |rs| ==>
          WellFormedCode(rs[i].shortUrl) && CollectionName(rs[i].shortUrl) == p)
    && (forall code :: SlotsValid(RecordsFor(rs, code)))
  }

  ghost predicate Valid(db: Store) {
    forall p: Partition :: PartitionValid(p, db.Get(p))
  }

  lemma EmptyStoreValid()
    ensures Valid(EmptyStore)
  {
  }

  /** In a valid partition the lookup by ordinal finds the record at that
      position among the code's records, and nothing past the last one. */
  lemma FindBySeqValid(p: Partition, rs: seq<Record>, code: string, sequence: nat)
    requires PartitionValid(p, rs)
    ensures var fs := RecordsFor(rs, code);
      FindBySeq(rs, code, sequence) == if sequence < |fs| then Some(fs[sequence]) else None
  {
    var fs := RecordsFor(rs, code);
    assert SlotsValid(fs);
    match FindBySeq(rs, code, sequence)
    case Some(x) =>
      assert x in fs;
      var i :| 0 <= i < |fs| && fs[i] == x;
      assert i == sequence;
    case None =>
  }

  /** Appending a record to a valid partition keeps it valid when the
      record is routed to the partition, takes its code's next ordinal
      below the ceiling, and carries a URL the code does not have yet. */
  lemma AppendPreservesPartitionValid(p: Partition, rs: seq<Record>, r: Record)
    requires PartitionValid(p, rs)
    requires WellFormedCode(r.shortUrl) && CollectionName(r.shortUrl) == p
    requires r.sequence == CountFor(rs, r.shortUrl) < MAX_COLLISIONS
    requires FindByUrl(rs, r.shortUrl, r.originalUrl).None?
    ensures PartitionValid(p, rs + [r])
  {
    forall code
      ensures SlotsValid(RecordsFor(rs + [r], code))
    {
      RecordsForAppend(rs, r, code);
      var fs := RecordsFor(rs, code);
      assert SlotsValid(fs);
      if r.shortUrl == code {
        forall i | 0 <= i < |fs|
          ensures fs[i].originalUrl != r.originalUrl
        {
          assert fs[i] in rs;
        }
      }
    }
  }

  /** The same for the whole store: the record is appended to partition
      `p` and the other partitions are untouched. */
  lemma InsertPreservesValid(db: Store, p: Partition, r: Record)
    requires Valid(db)
    requires WellFormedCode(r.shortUrl) && CollectionName(r.shortUrl) == p
    requires r.sequence == CountFor(db.Get(p), r.shortUrl) < MAX_COLLISIONS
    requires FindByUrl(db.Get(p), r.shortUrl, r.originalUrl).None?
    ensures Valid(db.Insert(p, r))
  {
    AppendPreservesPartitionValid(p, db.Get(p), r);
    forall q: Partition
      ensures PartitionValid(q, db.Insert(p, r).Get(q))
    {
      if q != p {
        assert PartitionValid(q, db.Get(q));
      }
    }
  }

  /** In a valid store no code has more records than the ceiling. */
  lemma CountBounded(db: Store, p: Partition, code: string)
    requires Valid(db)
    ensures CountFor(db.Get(p), code) <= MAX_COLLISIONS
  {
    assert PartitionValid(p, db.Get(p));
    assert SlotsValid(RecordsFor(db.Get(p), code));
  }
}

=== FILE: resolve.dfy ===
/** The read path: a presented code is decoded into the code the writer
    stored and a collision ordinal, then looked up cache-aside. */
module Resolve {
  import opened Errors
  import opened Options
  import opened Alphabet
  import opened Base64
  import opened Partitions
  import opened Records
  import opened Shorten

  /** What a presented code stands for: the code as stored and the
      collision ordinal taken from its last symbol. */
  datatype Decoded = Decoded(canonical: string, sequence: nat)

  /** The outcome of one lookup: the response and the cache after it. */
  datatype Read = Read(result: Result<string>, cache: Cache)

  /** On a scan position (a byte of at most 64), masking with 48 keeps the
      multiple of 16 the position starts from, except that 64 has neither
      bit; masking with 15 keeps what lies above that multiple. The two
      functions below use these arithmetic forms. */
  lemma MaskArithmetic(b: bv8)
    requires b <= 64
    ensures b & 48 == if b < 16 then 0 else if b < 32 then 16 else if b < 48 then 32 else if b < 64 then 48 else 0
    ensures b & 15 == if b < 64 then b - (b & 48) else 0
  {
  }

  /** The arithmetic forms agree with the masks on every scan position. */
  lemma MasksOfPosition(idx: nat)
    requires idx <= NOT_FOUND
    ensures ((idx as bv8) & 48) as nat == VariantBits(idx)
    ensures ((idx as bv8) & 15) as nat == OrdinalBits(idx)
  {
    var b := idx as bv8;
    MaskArithmetic(b);
    assert b as nat == idx;
  }

  /** `idx & 48`: bits 4 and 5 of a scan position, which select one of the
      symbols A, Q, g, w. */
  function VariantBits(idx: nat): (r: nat)
    requires idx <= NOT_FOUND
    ensures r < 64 && r % 16 == 0
    ensures idx == NOT_FOUND ==> r == 0
  {
    if idx < 16 then 0
    else if idx < 32 then 16
    else if idx < 48 then 32
    else if idx < 64 then 48
    else 0
  }

  /** `idx & 15`: the 4 low bits of a scan position, the ordinal. */
  function OrdinalBits(idx: nat): (r: nat)
    requires idx <= NOT_FOUND
    ensures r < 16
    ensures idx < NOT_FOUND ==> VariantBits(idx) + r == idx
    ensures idx == NOT_FOUND ==> r == 0
  {
    if idx < 64 then idx - VariantBits(idx) else 0
  }

  predicate IsAscii(c: char) {
    c as int < 128
  }

  /** A code whose last symbol has its 4 low bits clear: the form the
      writer stores and every decoding produces. */
  predicate IsStoredCode(c: string) {
    && |c| > 0
    && InAlphabet(c[|c| - 1])
    && Position(c[|c| - 1]) % 16 == 0
  }

  /** What decoding does to the last character: the replacement symbol
      has the 4 low bits clear, and together with the ordinal it gives
      back the scan position of a symbol; anything else becomes 'A' with
      ordinal 0. */
  lemma ReplacedSymbol(c: char)
    ensures var idx := Position(c); var v := VariantBits(idx);
      && Position(TABLES[v]) == v
      && InAlphabet(TABLES[v])
      && (InAlphabet(c) ==> idx == v + OrdinalBits(idx))
      && (!InAlphabet(c) ==> OrdinalBits(idx) == 0 && TABLES[v] == 'A')
  {
    var idx := Position(c);
    VariantSymbol(VariantBits(idx));
    if idx == NOT_FOUND {
      assert VariantBits(idx) == 0 && OrdinalBits(idx) == 0;
    } else {
      assert idx == VariantBits(idx) + OrdinalBits(idx);
    }
  }

  /** Decode a presented code. An empty code is a parameter error. The
      last character's scan position gives the ordinal (its low 4 bits)
      and is replaced by the symbol of its high bits. A last character
      outside the alphabet scans to 64: ordinal 0, replaced by 'A', and
      no error. The last character must be ASCII for the byte-indexed
      replacement to be defined. */
  function DecodeCode(code: string): (r: Result<Decoded>)
    requires code != [] ==> IsAscii(code[|code| - 1])
    ensures r.Err? <==> code == []
    ensures r.Err? ==> r.error == ParamsError
    ensures r.Ok? ==>
      var d := r.value;
      var n := |code| - 1;
      && d.sequence < MAX_COLLISIONS
      && |d.canonical| == |code|
      && d.canonical[..n] == code[..n]
      && IsStoredCode(d.canonical)
      && (InAlphabet(code[n]) ==> Position(code[n]) == Position(d.canonical[n]) + d.sequence)
      && (!InAlphabet(code[n]) ==> d.sequence == 0 && d.canonical[n] == 'A')
  {
    if code == [] then Err(ParamsError)
    else
      var n := |code| - 1;
      var idx := Position(code[n]);
      var variant := VariantBits(idx);
      ReplacedSymbol(code[n]);
      Ok(Decoded(code[..n] + [TABLES[variant]], OrdinalBits(idx)))
  }

  /** Decimal digits of a number, without leading zeros. */
  function Decimal(n: nat): (s: string)
    ensures |s| > 0
    ensures forall i :: 0 <= i < |s| ==> '0' <= s[i] <= '9'
    ensures n == 0 ==> s == "0"
    ensures n > 0 ==> s[0] != '0'
    decreases n
  {
    if n < 10 then [('0' as int + n) as char]
    else Decimal(n / 10) + [('0' as int + n % 10) as char]
  }

  function ParseDecimal(s: string): nat
    requires forall i :: 0 <= i < |s| ==> '0' <= s[i] <= '9'
  {
    if s == [] then 0
    else ParseDecimal(s[..|s| - 1]) * 10 + (s[|s| - 1] as int - '0' as int)
  }

  lemma {:induction false} ParseDecimalOfDecimal(n: nat)
    ensures ParseDecimal(Decimal(n)) == n
    decreases n
  {
    if n >= 10 {
      var s := Decimal(n);
      assert s[..|s| - 1] == Decimal(n / 10);
      ParseDecimalOfDecimal(n / 10);
    }
  }

  /** The cache key of a decoded code: "<canonical>:<ordinal>", the
      ordinal in decimal digits. */
  function CacheKey(canonical: string, sequence: nat): (key: string)
    ensures |key| > |canonical| + 1
    ensures key[..|canonical|] == canonical && key[|canonical|] == ':'
    ensures forall i :: |canonical| < i < |key| ==> '0' <= key[i] <= '9'
    ensures ParseDecimal(key[|canonical| + 1..]) == sequence
  {
    var key := canonical + ":" + Decimal(sequence);
    assert key[|canonical| + 1..] == Decimal(sequence);
    ParseDecimalOfDecimal(sequence);
    key
  }

  lemma {:induction false} DecimalInjective(a: nat, b: nat)
    ensures Decimal(a) == Decimal(b) <==> a == b
  {
    ParseDecimalOfDecimal(a);
    ParseDecimalOfDecimal(b);
  }

  /** The last character of a canonical code is a letter, so the key's
      final ':' is the one after the code. */
  lemma CanonicalEndsInLetter(c: string)
    requires IsStoredCode(c)
    ensures c[|c| - 1] != ':' && !('0' <= c[|c| - 1] <= '9')
  {
    VariantSymbol(Position(c[|c| - 1]));
  }

  /** Keys of canonical codes never collide: the key determines the code
      and the ordinal. */
  lemma CacheKeyInjective(c1: string, s1: nat, c2: string, s2: nat)
    requires IsStoredCode(c1) && IsStoredCode(c2)
    ensures CacheKey(c1, s1) == CacheKey(c2, s2) <==> c1 == c2 && s1 == s2
  {
    if CacheKey(c1, s1) == CacheKey(c2, s2) {
      CanonicalEndsInLetter(c1);
      CanonicalEndsInLetter(c2);
      var k := CacheKey(c1, s1);
      assert c1 == k[..|c1|] == c2;
      assert Decimal(s1) == k[|c1| + 1..] == Decimal(s2);
      DecimalInjective(s1, s2);
    }
  }

  /** Every alphabet symbol is ASCII, so every issued code can be
      presented. */
  lemma AlphabetIsAscii(c: char)
    requires InAlphabet(c)
    ensures IsAscii(c)
  {
    assert Position(c) < NOT_FOUND;
  }

  /** The store's answer for a decoded code: the URL of the record with
      that code and ordinal in the code's partition, or the empty string
      when there is none. */
  function StoreAnswer(db: Store, d: Decoded): (url: string)
    requires |d.canonical| > 0
    ensures var rs := db.Get(CollectionName(d.canonical));
      || (exists x :: x in rs && x.shortUrl == d.canonical && x.sequence == d.sequence && x.originalUrl == url)
      || (url == "" && forall x :: x in rs ==> !(x.shortUrl == d.canonical && x.sequence == d.sequence))
  {
    match FindBySeq(db.Get(CollectionName(d.canonical)), d.canonical, d.sequence)
    case Some(row) => row.originalUrl
    case None => ""
  }

  /** The outcome of a cache write: success or the error, and the cache
      after it. */
  datatype CacheWrite = CacheWrite(result: Result<()>, cache: Cache)

  /** GET of a key: a pool failure is an error; a failed or empty GET is
      a miss. */
  function InCache(cache: Cache, env: Env, key: string): (r: Result<Option<string>>)
    ensures r.Err? <==> !env.poolUp
    ensures r.Err? ==> r.error == RedisPoolError
    ensures r.Ok? && r.value.Some? ==> key in cache && r.value.value == cache[key]
    ensures env.poolUp && env.getOk && key in cache ==> r == Ok(Some(cache[key]))
    ensures env.poolUp && !(env.getOk && key in cache) ==> r == Ok(None)
  {
    if !env.poolUp then Err(RedisPoolError)
    else if env.getOk && key in cache then Ok(Some(cache[key]))
    else Ok(None)
  }

  /** SETEX of a key: on success the key maps to the URL and nothing else
      changes; on failure the cache is left as it was. */
  function SetCache(cache: Cache, env: Env, key: string, url: string): (w: CacheWrite)
    ensures w.result.Err? <==> !env.poolUp || !env.setOk
    ensures w.result.Err? ==> w.cache == cache
    ensures w.result.Err? ==> w.result.error == (if env.poolUp then RedisError else RedisPoolError)
    ensures w.result.Ok? ==> w.cache.Keys == cache.Keys + {key} && w.cache[key] == url
    ensures w.result.Ok? ==> forall k :: k in cache && k != key ==> w.cache[k] == cache[k]
  {
    if !env.poolUp then CacheWrite(Err(RedisPoolError), cache)
    else if !env.setOk then CacheWrite(Err(RedisError), cache)
    else CacheWrite(Ok(()), cache[key := url])
  }

  /** A written entry is read back while the cache works. */
  lemma SetThenGet(cache: Cache, env: Env, key: string, url: string)
    requires env.poolUp && env.getOk && env.setOk
    ensures InCache(SetCache(cache, env, key, url).cache, env, key) == Ok(Some(url))
  {
  }

  /** Resolve a presented code, cache first. On a miss the store is asked
      for the record with the decoded code and ordinal; a record found is
      cached under the decoded key, and no record answers the empty URL. */
  function Query(db: Store, cache: Cache, env: Env, presented: string): (rd: Read)
    requires presented != [] ==> IsAscii(presented[|presented| - 1])
    ensures presented == [] ==> rd == Read(Err(ParamsError), cache)
    ensures rd.result.Err? ==> rd.cache == cache
    ensures presented != [] ==>
      var d := DecodeCode(presented).value;
      var key := CacheKey(d.canonical, d.sequence);
      var hit := env.poolUp && env.getOk && key in cache;
      var found := FindBySeq(db.Get(CollectionName(d.canonical)), d.canonical, d.sequence).Some?;
      && (!env.poolUp ==> rd.result == Err(RedisPoolError))
      && (hit ==> rd == Read(Ok(cache[key]), cache))
      && (env.poolUp && !hit && !env.storeUp ==> rd.result == Err(MongodbError))
      && (env.poolUp && !hit && env.storeUp ==>
            && (rd.result.Ok? ==> rd.result == Ok(StoreAnswer(db, d)))
            && (rd.result.Err? <==> found && !env.setOk))
      && (env.poolUp && !hit && env.storeUp && found && env.setOk ==>
            rd == Read(Ok(StoreAnswer(db, d)), cache[key := StoreAnswer(db, d)]))
      && (env.poolUp && !hit && env.storeUp && found && !env.setOk ==> rd.result == Err(RedisError))
      && (rd.cache != cache ==> !hit && found && rd.cache == cache[key := StoreAnswer(db, d)])
  {
    match DecodeCode(presented)
    case Err(e) => Read(Err(e), cache)
    case Ok(d) =>
      var key := CacheKey(d.canonical, d.sequence);
      match InCache(cache, env, key)
      case Err(e) => Read(Err(e), cache)
      case Ok(Some(url)) => Read(Ok(url), cache)
      case Ok(None) =>
        if !env.storeUp then Read(Err(MongodbError), cache)
        else
          match FindBySeq(db.Get(CollectionName(d.canonical)), d.canonical, d.sequence)
          case None => Read(Ok(""), cache)
          case Some(row) =>
            var w := SetCache(cache, env, key, row.originalUrl);
            match w.result
            case Err(e) => Read(Err(e), w.cache)
            case Ok(_) => Read(Ok(row.originalUrl), w.cache)
  }

  /** Every cached entry under the key of a canonical code and ordinal
      holds the URL the store has for them. */
  ghost predicate Coherent(db: Store, cache: Cache) {
    forall c: string, s: nat ::
      IsStoredCode(c) && CacheKey(c, s) in cache ==>
        && FindBySeq(db.Get(CollectionName(c)), c, s).Some?
        && cache[CacheKey(c, s)] == StoreAnswer(db, Decoded(c, s))
  }

  /** Cache-aside is transparent: with the pool, the store and SETEX
      working, a coherent cache makes the lookup answer what the store
      alone answers, and the cache stays coherent. */
  lemma CacheAsideMatchesStore(db: Store, cache: Cache, env: Env, presented: string)
    requires presented != [] && IsAscii(presented[|presented| - 1])
    requires env.poolUp && env.storeUp && env.setOk
    requires Coherent(db, cache)
    ensures var rd := Query(db, cache, env, presented);
      && rd.result == Ok(StoreAnswer(db, DecodeCode(presented).value))
      && Coherent(db, rd.cache)
  {
    var d := DecodeCode(presented).value;
    var key := CacheKey(d.canonical, d.sequence);
    var rd := Query(db, cache, env, presented);
    if rd.cache != cache {
      forall c: string, s: nat | IsStoredCode(c) && CacheKey(c, s) in rd.cache
        ensures FindBySeq(db.Get(CollectionName(c)), c, s).Some?
        ensures rd.cache[CacheKey(c, s)] == StoreAnswer(db, Decoded(c, s))
      {
        CacheKeyInjective(c, s, d.canonical, d.sequence);
      }
    }
  }

  /** Every lookup keeps a cache coherent, whichever backends fail: the
      only entry it writes is the store's answer under its own key. */
  lemma QueryKeepsCoherent(db: Store, cache: Cache, env: Env, presented: string)
    requires presented != [] ==> IsAscii(presented[|presented| - 1])
    requires Coherent(db, cache)
    ensures Coherent(db, Query(db, cache, env, presented).cache)
  {
    if Query(db, cache, env, presented).cache != cache {
      CacheAsideMatchesStore(db, cache, env, presented);
    }
  }

  /** Entries expiring (any subset of keys removed) keep a cache coherent. */
  lemma ExpiryKeepsCoherent(db: Store, cache: Cache, expired: set<string>)
    requires Coherent(db, cache)
    ensures Coherent(db, cache - expired)
  {
  }

  /** Appending a record keeps a cache coherent: every record the cache
      speaks for is still the first with its code and ordinal. */
  lemma InsertKeepsCoherent(db: Store, cache: Cache, p: Partition, r: Record)
    requires Coherent(db, cache)
    ensures Coherent(db.Insert(p, r), cache)
  {
    var db2 := db.Insert(p, r);
    forall c: string, s: nat | IsStoredCode(c) && CacheKey(c, s) in cache
      ensures FindBySeq(db2.Get(CollectionName(c)), c, s).Some?
      ensures cache[CacheKey(c, s)] == StoreAnswer(db2, Decoded(c, s))
    {
      if CollectionName(c) == p {
        FindBySeqAppend(db.Get(p), r, c, s);
      }
    }
  }

  /** Shortening never invalidates a cached answer. */
  lemma ShortUrlKeepsCoherent(db: Store, cache: Cache, env: Env, hash: string -> U32, url: string)
    requires Coherent(db, cache)
    ensures Coherent(ShortUrl(db, env, hash, url).db, cache)
  {
    var w := ShortUrl(db, env, hash, url);
    if w.db != db {
      var code := EncodeHash(hash(url));
      var p := CollectionName(code);
      InsertKeepsCoherent(db, cache, p, Record(code, url, CountAsU32(db.Get(p), code)));
    }
  }

  /** The lookup-first write keeps a cache coherent too. */
  lemma CheckedKeepsCoherent(db: Store, cache: Cache, env: Env, hash: string -> U32, url: string)
    requires Coherent(db, cache)
    ensures Coherent(ShortUrlChecked(db, env, hash, url).db, cache)
  {
    var w := ShortUrlChecked(db, env, hash, url);
    if w.db != db {
      var code := EncodeHash(hash(url));
      var p := CollectionName(code);
      InsertKeepsCoherent(db, cache, p, Record(code, url, CountAsU32(db.Get(p), code)));
    }
  }

  /** Once a lookup has answered a URL, the same presented code answers it
      again from the cache, whatever the store holds and even when the
      store is unreachable. */
  lemma CachedAnswerSurvivesStoreOutage(db: Store, db2: Store, cache: Cache, presented: string, url: string)
    requires presented != [] && IsAscii(presented[|presented| - 1])
    requires Query(db, cache, Healthy, presented).result == Ok(url) && url != ""
    ensures var rd := Query(db, cache, Healthy, presented);
      Query(db2, rd.cache, Env(false, true, true, true), presented) == Read(Ok(url), rd.cache)
  {
  }

  /** An issued code decodes to itself with ordinal 0. */
  lemma DecodeIssuedCode(h: U32)
    ensures IsAscii(EncodeHash(h)[CODE_LENGTH - 1])
    ensures DecodeCode(EncodeHash(h)) == Ok(Decoded(EncodeHash(h), 0))
  {
    var code := EncodeHash(h);
    var n := CODE_LENGTH - 1;
    AlphabetIsAscii(code[n]);
    AlignedPosition(Position(code[n]), 0);
    var d := DecodeCode(code).value;
    assert d.canonical[n] == code[n];
    assert d.canonical == code[..n] + [code[n]] == code;
  }

  /** The presented code that reaches ordinal `s` of a stored code: the
      stored code with its last symbol moved `s` places along the
      alphabet. */
  function CodeForOrdinal(canonical: string, s: nat): (p: string)
    requires IsStoredCode(canonical) && s < MAX_COLLISIONS
    ensures |p| == |canonical| && p[..|p| - 1] == canonical[..|p| - 1]
    ensures InAlphabet(p[|p| - 1]) && IsAscii(p[|p| - 1])
    ensures Position(p[|p| - 1]) == Position(canonical[|p| - 1]) + s
  {
    var n := |canonical| - 1;
    AlignedPosition(Position(canonical[n]), s);
    var i := Position(canonical[n]) + s;
    PositionOfSymbol(i);
    AlphabetIsAscii(TABLES[i]);
    canonical[..n] + [TABLES[i]]
  }

  /** Decoding undoes CodeForOrdinal. */
  lemma DecodeCodeForOrdinal(canonical: string, s: nat)
    requires IsStoredCode(canonical) && s < MAX_COLLISIONS
    ensures DecodeCode(CodeForOrdinal(canonical, s)) == Ok(Decoded(canonical, s))
  {
    var n := |canonical| - 1;
    var q := CodeForOrdinal(canonical, s);
    var d := DecodeCode(q).value;
    AlignedPosition(Position(canonical[n]), s);
    PositionOfSymbol(Position(canonical[n]));
    assert d.canonical[n] == canonical[n];
    assert d.canonical == canonical[..n] + [canonical[n]] == canonical;
  }

  /** A presented code ending in an alphabet symbol reaches ordinal `s` of
      a stored code only as its CodeForOrdinal. */
  lemma OrdinalCodeUnique(presented: string, canonical: string, s: nat)
    requires presented != [] && IsAscii(presented[|presented| - 1])
    requires InAlphabet(presented[|presented| - 1])
    requires IsStoredCode(canonical) && s < MAX_COLLISIONS
    ensures DecodeCode(presented) == Ok(Decoded(canonical, s)) <==> presented == CodeForOrdinal(canonical, s)
  {
    DecodeCodeForOrdinal(canonical, s);
    if DecodeCode(presented) == Ok(Decoded(canonical, s)) {
      var n := |presented| - 1;
      var q := CodeForOrdinal(canonical, s);
      assert Position(presented[n]) == Position(q[n]);
      PositionOfSymbol(Position(q[n]));
      assert presented == presented[..n] + [presented[n]] == q[..n] + [q[n]];
    }
  }

  /** A multiple of 16 below 64 plus an ordinal below 16 splits back into
      the two. */
  lemma AlignedPosition(base: nat, s: nat)
    requires base < 64 && base % 16 == 0 && s < 16
    ensures base + s < 64 && (base + s) % 16 == s
    ensures OrdinalBits(base + s) == s
    ensures VariantBits(base + s) == base
  {
  }

  /** The codes that reach a nonzero ordinal are never issued: their last
      symbol has low bits set. */
  lemma CollidedOrdinalsNotIssued(canonical: string, s: nat)
    requires IsStoredCode(canonical) && 1 <= s < MAX_COLLISIONS
    ensures !WellFormedCode(CodeForOrdinal(canonical, s))
    ensures forall h: U32 :: EncodeHash(h) != CodeForOrdinal(canonical, s)
  {
    var n := |canonical| - 1;
    var q := CodeForOrdinal(canonical, s);
    AlignedPosition(Position(canonical[n]), s);
    assert Position(q[n]) % 16 != 0;
    forall h: U32 ensures EncodeHash(h) != q {
      if EncodeHash(h) == q {
        assert false;
      }
    }
  }

  /** With a valid store and a coherent cache, an issued code resolves to
      the first URL filed under it, or to the empty URL when none is. */
  lemma IssuedCodeResolvesToFirst(db: Store, cache: Cache, env: Env, h: U32)
    requires Valid(db) && Coherent(db, cache)
    requires env.poolUp && env.storeUp && env.setOk
    ensures IsAscii(EncodeHash(h)[CODE_LENGTH - 1])
    ensures var code := EncodeHash(h);
      var fs := RecordsFor(db.Get(CollectionName(code)), code);
      Query(db, cache, env, code).result == Ok(if |fs| > 0 then fs[0].originalUrl else "")
  {
    var code := EncodeHash(h);
    DecodeIssuedCode(h);
    CacheAsideMatchesStore(db, cache, env, code);
    var p := CollectionName(code);
    FindBySeqValid(p, db.Get(p), code, 0);
  }

  /** In a valid store with a coherent cache, a presented code that
      decodes to `code` and resolves to the URL at a nonzero ordinal `k` is
      the code of that ordinal. */
  lemma ReachedOnlyByOwnOrdinal(db: Store, cache: Cache, code: string, k: nat, q: string)
    requires Valid(db) && Coherent(db, cache) && IsStoredCode(code)
    requires var fs := RecordsFor(db.Get(CollectionName(code)), code);
      1 <= k < |fs| && fs[k].originalUrl != ""
    requires q != [] && IsAscii(q[|q| - 1]) && DecodeCode(q).value.canonical == code
    requires Query(db, cache, Healthy, q).result == Ok(RecordsFor(db.Get(CollectionName(code)), code)[k].originalUrl)
    ensures q == CodeForOrdinal(code, k)
  {
    var p := CollectionName(code);
    var fs := RecordsFor(db.Get(p), code);
    var d := DecodeCode(q).value;
    CacheAsideMatchesStore(db, cache, Healthy, q);
    FindBySeqValid(p, db.Get(p), code, d.sequence);
    assert PartitionValid(p, db.Get(p));
    assert SlotsValid(fs);
    assert d.sequence == k;
    if InAlphabet(q[|q| - 1]) {
      OrdinalCodeUnique(q, code, k);
    } else {
      assert false;
    }
  }

  /** A URL that collided with an earlier one is answered with the code of
      the first: resolving that code yields the first URL, and the URL
      itself is reached only through the code of its own ordinal. */
  lemma CollidedUrlUnreachableByItsCode(db: Store, cache: Cache, hash: string -> U32, url: string)
    returns (k: nat)
    requires Valid(db) && Coherent(db, cache)
    requires ShortUrl(db, Healthy, hash, url).result.Ok?
    requires var fs := RecordsFor(ShortUrl(db, Healthy, hash, url).db.Get(PartitionOf(hash, url)), CodeOf(hash, url));
      |fs| > 0 && fs[0].originalUrl != url
    ensures var w := ShortUrl(db, Healthy, hash, url);
      var code := w.result.value;
      var fs := RecordsFor(w.db.Get(PartitionOf(hash, url)), code);
      && 1 <= k < MAX_COLLISIONS
      && IsStoredCode(code)
      && Query(w.db, cache, Healthy, code).result == Ok(fs[0].originalUrl)
      && Query(w.db, cache, Healthy, CodeForOrdinal(code, k)).result == Ok(url)
    ensures var w := ShortUrl(db, Healthy, hash, url);
      var code := w.result.value;
      forall q ::
        (q != [] && IsAscii(q[|q| - 1]) && DecodeCode(q).value.canonical == code
         && Query(w.db, cache, Healthy, q).result == Ok(url))
        ==> q == CodeForOrdinal(code, k)
  {
    var w := ShortUrl(db, Healthy, hash, url);
    var code := CodeOf(hash, url);
    var p := CollectionName(code);
    var fs := RecordsFor(w.db.Get(p), code);
    ShortUrlPreservesValid(db, Healthy, hash, url);
    ShortUrlKeepsCoherent(db, cache, Healthy, hash, url);
    IssuedCodeResolvesToFirst(w.db, cache, Healthy, hash(url));
    k := StoredExactlyOnce(db, Healthy, hash, url);
    assert PartitionValid(p, w.db.Get(p));
    assert SlotsValid(fs);
    var q := CodeForOrdinal(code, k);
    DecodeCodeForOrdinal(code, k);
    CacheAsideMatchesStore(w.db, cache, Healthy, q);
    FindBySeqValid(p, w.db.Get(p), code, k);
    forall q' | q' != [] && IsAscii(q'[|q'| - 1]) && DecodeCode(q').value.canonical == code
        && Query(w.db, cache, Healthy, q').result == Ok(url)
      ensures q' == CodeForOrdinal(code, k)
    {
      ReachedOnlyByOwnOrdinal(w.db, cache, code, k, q');
    }
  }
}

=== FILE: shorten.dfy ===
/** The write path: shorten a URL. The code is the encoded fingerprint;
    URLs whose fingerprints collide share the code and are told apart by
    the collision ordinal stored with each record. */
module Shorten {
  import opened Errors
  import opened Options
  import opened Base64
  import opened Partitions
  import opened Records

  /** The outcome of one request: the response and the store after it. */
  datatype Written = Written(result: Result<string>, db: Store)

  /** The record count as the service holds it: an unsigned 32-bit value. */
  function CountAsU32(rs: seq<Record>, code: string): (n: nat)
    ensures n < TWO_32
    ensures CountFor(rs, code) < TWO_32 ==> n == CountFor(rs, code)
  {
    CountFor(rs, code) % TWO_32
  }

  /** Shorten `url`. An empty URL is a parameter error. Otherwise the code
      is the encoded hash; with no record for it yet the URL is stored
      with ordinal 0; with 1 to 15 records the URL is looked up and, if
      absent, stored with the next ordinal; with 16 or more the request
      fails with an overflow, even for a URL that is already stored. The
      answer is the code in every successful case. */
  function ShortUrl(db: Store, env: Env, hash: string -> U32, url: string): (w: Written)
    ensures url == [] ==> w == Written(Err(ParamsError), db)
    ensures w.result.Err? ==> w.db == db
    ensures w.result.Ok? ==> w.result.value == EncodeHash(hash(url))
    ensures w.result.Ok? ==>
      var code := w.result.value;
      FindByUrl(w.db.Get(CollectionName(code)), code, url).Some?
    ensures w.db != db ==>
      var code := EncodeHash(hash(url));
      var p := CollectionName(code);
      w.db == db.Insert(p, Record(code, url, CountAsU32(db.Get(p), code)))
    ensures !env.storeUp && url != [] ==> w.result == Err(MongodbError)
  {
    if |url| == 0 then Written(Err(ParamsError), db)
    else
      var code := EncodeHash(hash(url));
      var p := CollectionName(code);
      var rs := db.Get(p);
      if !env.storeUp then Written(Err(MongodbError), db)
      else
        var count := CountAsU32(rs, code);
        if count == 0 then
          Written(Ok(code), db.Insert(p, Record(code, url, 0)))
        else if count < MAX_COLLISIONS then
          match FindByUrl(rs, code, url)
          case Some(row) => Written(Ok(row.shortUrl), db)
          case None => Written(Ok(code), db.Insert(p, Record(code, url, count)))
        else
          Written(Err(Overflow(url)), db)
  }

  /** The code and partition a URL is filed under. */
  function CodeOf(hash: string -> U32, url: string): string {
    EncodeHash(hash(url))
  }

  function PartitionOf(hash: string -> U32, url: string): Partition {
    CollectionName(CodeOf(hash, url))
  }

  /** The first URL for a code is stored with ordinal 0. */
  lemma FirstUrlForCode(db: Store, env: Env, hash: string -> U32, url: string)
    requires url != [] && env.storeUp
    requires CountFor(db.Get(PartitionOf(hash, url)), CodeOf(hash, url)) == 0
    ensures var code := CodeOf(hash, url);
      ShortUrl(db, env, hash, url)
      == Written(Ok(code), db.Insert(CollectionName(code), Record(code, url, 0)))
  {
  }

  /** Resubmitting a stored URL below the ceiling answers the same code and
      writes nothing. */
  lemma ResubmitIsIdempotent(db: Store, env: Env, hash: string -> U32, url: string)
    requires url != [] && env.storeUp
    requires var n := CountFor(db.Get(PartitionOf(hash, url)), CodeOf(hash, url)); 1 <= n < MAX_COLLISIONS
    requires FindByUrl(db.Get(PartitionOf(hash, url)), CodeOf(hash, url), url).Some?
    ensures ShortUrl(db, env, hash, url) == Written(Ok(CodeOf(hash, url)), db)
  {
  }

  /** A new colliding URL below the ceiling is appended with the next
      ordinal, and the answer is the same code the earlier URLs got. */
  lemma CollidingUrlTakesNextOrdinal(db: Store, env: Env, hash: string -> U32, url: string)
    requires url != [] && env.storeUp
    requires var n := CountFor(db.Get(PartitionOf(hash, url)), CodeOf(hash, url)); 1 <= n < MAX_COLLISIONS
    requires FindByUrl(db.Get(PartitionOf(hash, url)), CodeOf(hash, url), url).None?
    ensures var code := CodeOf(hash, url);
      var p := CollectionName(code);
      ShortUrl(db, env, hash, url)
      == Written(Ok(code), db.Insert(p, Record(code, url, CountFor(db.Get(p), code))))
  {
  }

  /** At the ceiling every request for the code overflows and writes
      nothing, whether or not the URL is already stored. */
  lemma FullCodeOverflows(db: Store, env: Env, hash: string -> U32, url: string)
    requires url != [] && env.storeUp
    requires MAX_COLLISIONS <= CountFor(db.Get(PartitionOf(hash, url)), CodeOf(hash, url)) < TWO_32
    ensures ShortUrl(db, env, hash, url) == Written(Err(Overflow(url)), db)
  {
  }

  /** A shortening request keeps the store valid: ordinals stay 0, 1, ...
      per code, at most 16 of them, and no URL is stored twice for a code. */
  lemma ShortUrlPreservesValid(db: Store, env: Env, hash: string -> U32, url: string)
    requires Valid(db)
    ensures Valid(ShortUrl(db, env, hash, url).db)
  {
    var w := ShortUrl(db, env, hash, url);
    if w.db != db {
      var code := CodeOf(hash, url);
      var p := CollectionName(code);
      var rs := db.Get(p);
      CountBounded(db, p, code);
      var n := CountFor(rs, code);
      InsertPreservesValid(db, p, Record(code, url, n));
    }
  }

  /** After a successful request on a valid store the URL is stored
      exactly once under its code: at index `i` of the code's records and
      nowhere else. */
  lemma StoredExactlyOnce(db: Store, env: Env, hash: string -> U32, url: string) returns (i: nat)
    requires Valid(db)
    requires ShortUrl(db, env, hash, url).result.Ok?
    ensures var fs := RecordsFor(ShortUrl(db, env, hash, url).db.Get(PartitionOf(hash, url)), CodeOf(hash, url));
      && i < |fs| && fs[i].originalUrl == url
      && forall j :: 0 <= j < |fs| && fs[j].originalUrl == url ==> j == i
  {
    var w := ShortUrl(db, env, hash, url);
    ShortUrlPreservesValid(db, env, hash, url);
    var code := CodeOf(hash, url);
    var p := CollectionName(code);
    var rs := w.db.Get(p);
    var fs := RecordsFor(rs, code);
    var row := FindByUrl(rs, code, url).value;
    assert row in fs;
    i :| 0 <= i < |fs| && fs[i] == row;
    assert PartitionValid(p, rs);
    assert SlotsValid(fs);
  }

  /** Below the ceiling, repeating a successful request answers the same
      code and writes nothing. */
  lemma RepeatBelowCeiling(db: Store, env: Env, hash: string -> U32, url: string)
    requires Valid(db)
    requires ShortUrl(db, env, hash, url).result.Ok?
    requires var w := ShortUrl(db, env, hash, url);
      CountFor(w.db.Get(PartitionOf(hash, url)), CodeOf(hash, url)) < MAX_COLLISIONS
    ensures var w := ShortUrl(db, env, hash, url);
      ShortUrl(w.db, env, hash, url) == w
  {
    var w := ShortUrl(db, env, hash, url);
    var code := CodeOf(hash, url);
    var p := CollectionName(code);
    var row := FindByUrl(w.db.Get(p), code, url).value;
    assert row in RecordsFor(w.db.Get(p), code);
  }

  /** As written, a URL stored in the last free slot of its code cannot be
      resubmitted: the count is checked before the lookup, so the repeat
      overflows instead of answering the code. */
  lemma RepeatAtCeilingOverflows(db: Store, env: Env, hash: string -> U32, url: string)
    requires Valid(db) && env.storeUp && url != []
    requires CountFor(db.Get(PartitionOf(hash, url)), CodeOf(hash, url)) == MAX_COLLISIONS - 1
    requires FindByUrl(db.Get(PartitionOf(hash, url)), CodeOf(hash, url), url).None?
    ensures var w := ShortUrl(db, env, hash, url);
      && w.result == Ok(CodeOf(hash, url))
      && FindByUrl(w.db.Get(PartitionOf(hash, url)), CodeOf(hash, url), url).Some?
      && ShortUrl(w.db, env, hash, url) == Written(Err(Overflow(url)), w.db)
  {
    var code := CodeOf(hash, url);
    var p := CollectionName(code);
    var rs := db.Get(p);
    var r := Record(code, url, MAX_COLLISIONS - 1);
    RecordsForAppend(rs, r, code);
    assert CountFor(rs + [r], code) == MAX_COLLISIONS;
  }

  /** The lookup-first order: a URL already stored under its code is
      answered with the code whatever the count; only a new URL meets the
      ceiling. Otherwise as ShortUrl. */
  function ShortUrlChecked(db: Store, env: Env, hash: string -> U32, url: string): (w: Written)
    ensures url == [] ==> w == Written(Err(ParamsError), db)
    ensures w.result.Err? ==> w.db == db
    ensures w.result.Ok? ==> w.result.value == EncodeHash(hash(url))
    ensures w.result.Ok? ==>
      var code := w.result.value;
      FindByUrl(w.db.Get(CollectionName(code)), code, url).Some?
    ensures w.db != db ==>
      var code := EncodeHash(hash(url));
      var p := CollectionName(code);
      w.db == db.Insert(p, Record(code, url, CountAsU32(db.Get(p), code)))
    ensures !env.storeUp && url != [] ==> w.result == Err(MongodbError)
  {
    if |url| == 0 then Written(Err(ParamsError), db)
    else
      var code := EncodeHash(hash(url));
      var p := CollectionName(code);
      var rs := db.Get(p);
      if !env.storeUp then Written(Err(MongodbError), db)
      else
        match FindByUrl(rs, code, url)
        case Some(row) => Written(Ok(row.shortUrl), db)
        case None =>
          var count := CountAsU32(rs, code);
          if count < MAX_COLLISIONS then Written(Ok(code), db.Insert(p, Record(code, url, count)))
          else Written(Err(Overflow(url)), db)
  }

  /** The two orders differ only on a stored URL at the ceiling. */
  lemma CheckedAgreesBelowCeiling(db: Store, env: Env, hash: string -> U32, url: string)
    requires url != [] ==>
      CountFor(db.Get(PartitionOf(hash, url)), CodeOf(hash, url)) < MAX_COLLISIONS
      || FindByUrl(db.Get(PartitionOf(hash, url)), CodeOf(hash, url), url).None?
    requires url != [] ==> CountFor(db.Get(PartitionOf(hash, url)), CodeOf(hash, url)) < TWO_32
    ensures ShortUrlChecked(db, env, hash, url) == ShortUrl(db, env, hash, url)
  {
    if url != [] {
      var code := CodeOf(hash, url);
      var rs := db.Get(CollectionName(code));
      if FindByUrl(rs, code, url).Some? {
        assert FindByUrl(rs, code, url).value in RecordsFor(rs, code);
      }
    }
  }

  /** With the lookup first, repeating a successful request always answers
      the same code and writes nothing. */
  lemma CheckedRepeatIsIdempotent(db: Store, env: Env, hash: string -> U32, url: string)
    requires ShortUrlChecked(db, env, hash, url).result.Ok?
    ensures var w := ShortUrlChecked(db, env, hash, url);
      ShortUrlChecked(w.db, env, hash, url) == w
  {
  }

  lemma CheckedPreservesValid(db: Store, env: Env, hash: string -> U32, url: string)
    requires Valid(db)
    ensures Valid(ShortUrlChecked(db, env, hash, url).db)
  {
    var w := ShortUrlChecked(db, env, hash, url);
    if w.db != db {
      var code := CodeOf(hash, url);
      var p := CollectionName(code);
      CountBounded(db, p, code);
      InsertPreservesValid(db, p, Record(code, url, CountFor(db.Get(p), code)));
    }
  }

  /** Sequential requests, in order: every answer and the final store. */
  datatype Batch = Batch(results: seq<Result<string>>, db: Store)

  /** The requests of `urls` served one after another by the write as
      written. */
  function ShortenAll(db: Store, env: Env, hash: string -> U32, urls: seq<string>): (b: Batch)
    ensures |b.results| == |urls|
    decreases |urls|
  {
    if urls == [] then Batch([], db)
    else
      var prev := ShortenAll(db, env, hash, urls[..|urls| - 1]);
      var w := ShortUrl(prev.db, env, hash, urls[|urls| - 1]);
      Batch(prev.results + [w.result], w.db)
  }

  /** The same requests served by the lookup-first write. */
  function ShortenAllChecked(db: Store, env: Env, hash: string -> U32, urls: seq<string>): (b: Batch)
    ensures |b.results| == |urls|
    decreases |urls|
  {
    if urls == [] then Batch([], db)
    else
      var prev := ShortenAllChecked(db, env, hash, urls[..|urls| - 1]);
      var w := ShortUrlChecked(prev.db, env, hash, urls[|urls| - 1]);
      Batch(prev.results + [w.result], w.db)
  }

  /** Any sequence of requests keeps the store valid. */
  lemma {:induction false} ShortenAllPreservesValid(db: Store, env: Env, hash: string -> U32, urls: seq<string>)
    requires Valid(db)
    ensures Valid(ShortenAll(db, env, hash, urls).db)
    decreases |urls|
  {
    if urls != [] {
      var prev := ShortenAll(db, env, hash, urls[..|urls| - 1]);
      ShortenAllPreservesValid(db, env, hash, urls[..|urls| - 1]);
      ShortUrlPreservesValid(prev.db, env, hash, urls[|urls| - 1]);
    }
  }

  /** The same for the lookup-first write. */
  lemma {:induction false} ShortenAllCheckedPreservesValid(db: Store, env: Env, hash: string -> U32, urls: seq<string>)
    requires Valid(db)
    ensures Valid(ShortenAllChecked(db, env, hash, urls).db)
    decreases |urls|
  {
    if urls != [] {
      var prev := ShortenAllChecked(db, env, hash, urls[..|urls| - 1]);
      ShortenAllCheckedPreservesValid(db, env, hash, urls[..|urls| - 1]);
      CheckedPreservesValid(prev.db, env, hash, urls[|urls| - 1]);
    }
  }

  /** One step of a run of colliding URLs: a URL new to its code, below
      the ceiling, gets the code and the next ordinal. */
  lemma CollisionStep(db: Store, env: Env, hash: string -> U32, url: string, fs: seq<Record>)
    requires env.storeUp && url != []
    requires fs == RecordsFor(db.Get(PartitionOf(hash, url)), CodeOf(hash, url))
    requires |fs| < MAX_COLLISIONS
    requires forall k :: 0 <= k < |fs| ==> fs[k].originalUrl != url
    ensures var w := ShortUrl(db, env, hash, url);
      && w.result == Ok(CodeOf(hash, url))
      && RecordsFor(w.db.Get(PartitionOf(hash, url)), CodeOf(hash, url))
         == fs + [Record(CodeOf(hash, url), url, |fs|)]
  {
    var code := CodeOf(hash, url);
    var p := CollectionName(code);
    var rs := db.Get(p);
    assert FindByUrl(rs, code, url).None? by {
      forall x | x in rs ensures !(x.shortUrl == code && x.originalUrl == url) {
        if x.shortUrl == code {
          assert x in fs;
        }
      }
    }
    RecordsForAppend(rs, Record(code, url, |fs|), code);
  }

  /** The records of a run of colliding URLs: one per URL, in call order,
      with ordinals 0, 1, .... */
  predicate StoredInCallOrder(fs: seq<Record>, urls: seq<string>, code: string) {
    && |fs| == |urls|
    && forall i :: 0 <= i < |fs| ==> fs[i] == Record(code, urls[i], i)
  }

  /** The last request of a run, as seen from the run: a URL new to its
      code, below the ceiling, extends the code's records by one. */
  lemma ShortenAllStep(db: Store, env: Env, hash: string -> U32, urls: seq<string>, fs: seq<Record>)
    requires env.storeUp && urls != [] && urls[|urls| - 1] != []
    requires var url := urls[|urls| - 1];
      && fs == RecordsFor(ShortenAll(db, env, hash, urls[..|urls| - 1]).db.Get(PartitionOf(hash, url)), CodeOf(hash, url))
      && |fs| < MAX_COLLISIONS
      && forall k :: 0 <= k < |fs| ==> fs[k].originalUrl != url
    ensures var url := urls[|urls| - 1];
      var prev := ShortenAll(db, env, hash, urls[..|urls| - 1]);
      var b := ShortenAll(db, env, hash, urls);
      && b.results == prev.results + [Ok(CodeOf(hash, url))]
      && RecordsFor(b.db.Get(PartitionOf(hash, url)), CodeOf(hash, url))
         == fs + [Record(CodeOf(hash, url), url, |fs|)]
  {
    var prev := ShortenAll(db, env, hash, urls[..|urls| - 1]);
    CollisionStep(prev.db, env, hash, urls[|urls| - 1], fs);
  }

  lemma CallOrderAppend(fs: seq<Record>, urls: seq<string>, code: string)
    requires urls != []
    requires StoredInCallOrder(fs, urls[..|urls| - 1], code)
    ensures StoredInCallOrder(fs + [Record(code, urls[|urls| - 1], |fs|)], urls, code)
  {
    var fs' := fs + [Record(code, urls[|urls| - 1], |fs|)];
    forall i | 0 <= i < |fs'|
      ensures fs'[i] == Record(code, urls[i], i)
    {
      if i < |fs| {
        assert fs'[i] == fs[i];
        assert urls[..|urls| - 1][i] == urls[i];
      }
    }
  }

  /** Non-empty, pairwise distinct URLs that all hash to `h`. */
  predicate CollidingRun(hash: string -> U32, urls: seq<string>, h: U32) {
    && (forall i :: 0 <= i < |urls| ==> urls[i] != [] && hash(urls[i]) == h)
    && (forall i, j :: 0 <= i < j < |urls| ==> urls[i] != urls[j])
  }

  lemma CollidingRunPrefix(hash: string -> U32, urls: seq<string>, h: U32)
    requires urls != [] && CollidingRun(hash, urls, h)
    ensures CollidingRun(hash, urls[..|urls| - 1], h)
    ensures urls[|urls| - 1] != [] && hash(urls[|urls| - 1]) == h
    ensures forall i :: 0 <= i < |urls| - 1 ==> urls[i] != urls[|urls| - 1]
  {
  }

  predicate AllAnswered(results: seq<Result<string>>, code: string) {
    forall i :: 0 <= i < |results| ==> results[i] == Ok(code)
  }

  /** A run of colliding URLs stored in call order stays so when one more
      URL with the same fingerprint, new to the run, is shortened. */
  lemma RunExtends(db: Store, env: Env, hash: string -> U32, urls: seq<string>, h: U32)
    requires env.storeUp && urls != [] && |urls| <= MAX_COLLISIONS
    requires urls[|urls| - 1] != [] && hash(urls[|urls| - 1]) == h
    requires forall i :: 0 <= i < |urls| - 1 ==> urls[i] != urls[|urls| - 1]
    requires var prev := ShortenAll(db, env, hash, urls[..|urls| - 1]);
      var code := EncodeHash(h);
      && AllAnswered(prev.results, code)
      && StoredInCallOrder(RecordsFor(prev.db.Get(CollectionName(code)), code), urls[..|urls| - 1], code)
    ensures var b := ShortenAll(db, env, hash, urls);
      var code := EncodeHash(h);
      && AllAnswered(b.results, code)
      && StoredInCallOrder(RecordsFor(b.db.Get(CollectionName(code)), code), urls, code)
  {
    var code := EncodeHash(h);
    var n := |urls| - 1;
    var init := urls[..n];
    var prev := ShortenAll(db, env, hash, init);
    var fs := RecordsFor(prev.db.Get(CollectionName(code)), code);
    assert forall k :: 0 <= k < |fs| ==> fs[k].originalUrl != urls[n] by {
      assert StoredInCallOrder(fs, init, code);
    }
    assert CodeOf(hash, urls[n]) == code;
    ShortenAllStep(db, env, hash, urls, fs);
    AnsweredAppend(prev.results, code);
    CallOrderAppend(fs, urls, code);
  }

  lemma AnsweredAppend(results: seq<Result<string>>, code: string)
    requires AllAnswered(results, code)
    ensures AllAnswered(results + [Ok(code)], code)
  {
  }

  /** Distinct URLs whose fingerprints collide on a code not yet in use,
      shortened one after another, all get that code and are stored with
      ordinals 0, 1, ... in call order. */
  lemma {:induction false} CollisionOrdering(db: Store, env: Env, hash: string -> U32, urls: seq<string>, h: U32)
    requires env.storeUp && |urls| <= MAX_COLLISIONS
    requires CollidingRun(hash, urls, h)
    requires CountFor(db.Get(CollectionName(EncodeHash(h))), EncodeHash(h)) == 0
    ensures var b := ShortenAll(db, env, hash, urls);
      var code := EncodeHash(h);
      && AllAnswered(b.results, code)
      && StoredInCallOrder(RecordsFor(b.db.Get(CollectionName(code)), code), urls, code)
    decreases |urls|
  {
    if urls != [] {
      CollidingRunPrefix(hash, urls, h);
      CollisionOrdering(db, env, hash, urls[..|urls| - 1], h);
      RunExtends(db, env, hash, urls, h);
    }
  }

  /** On such a run the two writes agree: every URL is new to the code
      and the count stays below the ceiling, which is the only case in
      which they differ. */
  lemma {:induction false} RunsAgree(db: Store, env: Env, hash: string -> U32, urls: seq<string>, h: U32)
    requires env.storeUp && |urls| <= MAX_COLLISIONS
    requires CollidingRun(hash, urls, h)
    requires CountFor(db.Get(CollectionName(EncodeHash(h))), EncodeHash(h)) == 0
    ensures ShortenAllChecked(db, env, hash, urls) == ShortenAll(db, env, hash, urls)
    decreases |urls|
  {
    if urls != [] {
      var init := urls[..|urls| - 1];
      var url := urls[|urls| - 1];
      var code := EncodeHash(h);
      CollidingRunPrefix(hash, urls, h);
      RunsAgree(db, env, hash, init, h);
      CollisionOrdering(db, env, hash, init, h);
      var prev := ShortenAll(db, env, hash, init);
      assert StoredInCallOrder(RecordsFor(prev.db.Get(CollectionName(code)), code), init, code);
      assert CodeOf(hash, url) == code;
      CheckedAgreesBelowCeiling(prev.db, env, hash, url);
    }
  }

  /** Once sixteen colliding URLs hold every ordinal of their code, any
      further request with the same fingerprint overflows and writes
      nothing, a repeat of one of the sixteen included. */
  lemma SeventeenthCollisionOverflows(db: Store, env: Env, hash: string -> U32, urls: seq<string>, url: string, h: U32)
    requires env.storeUp && |urls| == MAX_COLLISIONS
    requires CollidingRun(hash, urls, h)
    requires CountFor(db.Get(CollectionName(EncodeHash(h))), EncodeHash(h)) == 0
    requires url != [] && hash(url) == h
    ensures var b := ShortenAll(db, env, hash, urls);
      ShortUrl(b.db, env, hash, url) == Written(Err(Overflow(url)), b.db)
  {
    CollisionOrdering(db, env, hash, urls, h);
    var b := ShortenAll(db, env, hash, urls);
    var code := EncodeHash(h);
    assert StoredInCallOrder(RecordsFor(b.db.Get(CollectionName(code)), code), urls, code);
  }

  /** With the lookup first, only a URL new to the sixteen overflows. */
  lemma CheckedSeventeenthOverflows(db: Store, env: Env, hash: string -> U32, urls: seq<string>, url: string, h: U32)
    requires env.storeUp && |urls| == MAX_COLLISIONS
    requires CollidingRun(hash, urls, h)
    requires CountFor(db.Get(CollectionName(EncodeHash(h))), EncodeHash(h)) == 0
    requires url != [] && hash(url) == h && url !in urls
    ensures var b := ShortenAllChecked(db, env, hash, urls);
      ShortUrlChecked(b.db, env, hash, url) == Written(Err(Overflow(url)), b.db)
  {
    RunsAgree(db, env, hash, urls, h);
    CollisionOrdering(db, env, hash, urls, h);
    var b := ShortenAll(db, env, hash, urls);
    var code := EncodeHash(h);
    var rs := b.db.Get(CollectionName(code));
    var fs := RecordsFor(rs, code);
    assert StoredInCallOrder(fs, urls, code);
    assert FindByUrl(rs, code, url).None? by {
      forall x | x in rs ensures !(x.shortUrl == code && x.originalUrl == url) {
        if x.shortUrl == code {
          assert x in fs;
        }
      }
    }
  }
}
